=== FILE: README.md ===
# Speaker diarization of Sikker-Transkribent, in Dafny

`transcribe.py` transcribes Danish audio files and labels who speaks when.
This project models the part that follows speech recognition:

- **Segment filter** (`segments.dfy`). Each recognised segment is cut out of the
  16 kHz waveform by sample index, `wav[int(start*16000):int(end*16000)]`.
  Only segments whose slice holds at least `16000 // 2` samples are embedded.
  The waveform is represented by its length, and the voice encoder by an
  opaque function of the slice bounds.
- **Speaker-count selection** (`clustering.dfy`). Every count from 1 to
  `min(max_speakers, N)` is clustered and scored. One cluster scores 0, and a
  failed silhouette call scores -1. The first count with the strictly best
  score wins. Each kept segment is then zipped with its label. The clustering
  and silhouette libraries are supplied as functions.
- **Turn consolidation** (`merge.dfy`). `merge_short_segments` folds the
  labelled segments into speaker turns. A segment joins the running turn when
  it has the same speaker and the turn, measured before the merge, is shorter
  than `min_duration`. Turn texts are stripped.
- **Timestamps** (`timestamps.dfy`). `format_timestamp` renders
  `str(timedelta(seconds=int(s)))`, with `,mmm` appended for subtitles.
- **Output lines** (`render.dfy`). `write_txt` writes one
  `[start - end] Speaker n: text` line per turn. `write_srt` writes one
  numbered four-line block per turn.
- **`process_file`** (`pipeline.dfy`). Clustering, consolidation and rendering
  combined, as written and as evidently intended.
- **Python builtins** (`builtins.dfy`). The builtins these steps rely on:
  `int()` of a float, slice clamping, `str.strip`, `str(int)`, the
  zero-padding format spec `{ms:03d}` and `str.split`. A count of the
  separator characters in a string is used to reason about `split`.

Two behaviours of the code are easy to misread:

- Sample indices are truncated by `int()` at `transcribe.py:46-47`, not
  rounded.
- Subtitle hours are not padded to two digits. The comment at
  `transcribe.py:26` expects `str(timedelta)` to give `MM:SS` for short
  times. It always gives `H:MM:SS`, with two colons, so the `"00:"` branch at
  lines 26-27 never runs. Five seconds render as `0:00:05,000`.

## Model

| member | source | states |
|---|---|---|
| Builtins.Trunc | transcribe.py:46-47 | `int()` of a float truncates toward zero: the result is the largest integer not above a non-negative value and the smallest not below a negative one |
| Builtins.SliceIndex | transcribe.py:48 | a slice bound lands in `[0, len]`: a bound inside the sequence is kept, a negative bound counts from the end, a bound past the end clamps to `len`, and a negative bound before the start clamps to 0 |
| Builtins.Strip | transcribe.py:104 | `strip()` never lengthens a string, and the result is empty or starts and ends with a character outside the 29 that `str.isspace` accepts |
| Builtins.StripIsInfix | transcribe.py:104 | the stripped text is a contiguous piece of the original, and everything cut off on either side is whitespace |
| Builtins.StripIdempotent | transcribe.py:104 | stripping twice is the same as stripping once |
| Builtins.TrimStartSpec | transcribe.py:104 | the leading half of `strip()` removes exactly the longest whitespace prefix: what remains is a suffix that does not start with whitespace, and everything removed is whitespace |
| Builtins.TrimEndSpec | transcribe.py:104 | the trailing half of `strip()` removes exactly the longest whitespace suffix: what remains is a prefix that does not end with whitespace, and everything removed is whitespace |
| Builtins.IsSpaceWhitespace | transcribe.py:104 | the whitespace test `strip()` uses accepts exactly the 29 characters for which `str.isspace` holds |
| Builtins.IntStr | transcribe.py:112 | `str(int)` is non-empty and starts with `-` exactly for a negative number; every character after that sign, or every character of a non-negative number's string, is a digit; there is no leading zero, so the only string starting with `0` is `0` itself, and a negative number's first digit is not `0` |
| Builtins.IntStrRoundTrip | transcribe.py:112 | the speaker number written by `str(int)` reads back as the same integer, negative numbers included |
| Builtins.NatStrRoundTrip | transcribe.py:119 | the subtitle number written as decimal digits reads back as the same natural number |
| Builtins.FormatD | transcribe.py:28 | `{ms:03d}` is at least three characters long and starts with `-` exactly for a negative number; every character after that sign, or every character of a non-negative number's string, is a digit |
| Builtins.FormatDReadsBack | transcribe.py:24-28 | `{ms:03d}` of any integer reads back as that integer, including the negative `ms` that line 24 gives for a negative time |
| Builtins.FormatDRoundTrip | transcribe.py:28 | `{ms:03d}` of a number below 1000 has exactly three digits and reads back as that number |
| Builtins.SplitOn | transcribe.py:26 | `split(":")` yields one more piece than there are colons |
| Segments.SliceLength | transcribe.py:45-49 | the slice length never exceeds the audio length; it is the sample-index difference when both indices lie inside the audio, the distance from the start to the end of the audio when the segment runs past the end, and 0 when the end index is non-negative and not after the start |
| Segments.FilterIndices | transcribe.py:44-53 | a filter keeps exactly the accepted elements, in input order: the kept positions strictly increase, and a position is kept if and only if its element is accepted |
| Segments.KeptIndices | transcribe.py:44-53 | the surviving segments are exactly the inputs whose slice holds at least 8000 samples, kept in their input order |
| Segments.EmbedSegments | transcribe.py:41-53 | `valid_segments` is the filtered list, and `segment_embeddings` has one entry per kept segment: the encoder applied to that segment's own slice |
| Segments.HalfSecondThreshold | transcribe.py:49 | a 0.5 s segment is kept and a 0.4999 s segment is dropped |
| Segments.SliceClampedAtEnd | transcribe.py:48-49 | a segment running past the end of the audio is measured on the clamped slice, not rejected |
| Clustering.BeatsOneCluster | transcribe.py:65-72 | a count other than 1 outscores the single-cluster candidate exactly when its silhouette was computed and is positive; a failed silhouette call scores below it |
| Clustering.SelectFrom | transcribe.py:62-75 | the loop from candidate `k` on keeps the first strict maximum: the result scores at least every candidate up to `hi` and strictly more than every earlier one, and carries its own count's labels; with no candidates left the running best is returned unchanged |
| Clustering.SelectSpeakerCount | transcribe.py:58-75 | the chosen count lies in `1..min(max, N)` and carries that count's labels; its score is at least every candidate's and strictly above every earlier one's (first strict argmax); a count other than 1 wins only with a computed positive silhouette, so a failed candidate is never chosen; with an empty range no labels are chosen and the count stays 1 |
| Clustering.Zip | transcribe.py:77 | `zip` pairs the segments and labels position by position and stops at the shorter input |
| Clustering.ClusterSpeakers | transcribe.py:39-77 | the bare `[]` is returned exactly when no segment survives; the labels stay `None` exactly when `max_speakers < 1` and some segment survives; otherwise the count is between 1 and both `max_speakers` and the number of kept segments, entry `i` pairs kept segment `i` with its label, the chosen count's score is at least every candidate's and strictly above every earlier one's, and a count other than 1 has a computed positive silhouette |
| Clustering.SingleSegmentOneSpeaker | transcribe.py:61-66 | with one surviving segment the only candidate, one speaker, is chosen, provided the clustering call returns |
| Clustering.AssignmentCoversKept | transcribe.py:62-77 | when the clustering returns one label per embedding, the assignment has one entry per kept segment, in input order |
| Merging.MergeRun | transcribe.py:89-104 | folding the remaining segments into a running turn emits between 1 and one-more-than-remaining turns |
| Merging.MergeShortSegments | transcribe.py:79-105 | empty input gives no turns, non-empty input gives at least one, and there are never more turns than segments |
| Merging.GroupLength | transcribe.py:89-98 | the first group ends at the first segment that fails the merge rule: the rule holds for every segment before it |
| Merging.MergeRunGroup | transcribe.py:89-104 | a running turn that has absorbed part of a group keeps absorbing up to the group's end, is emitted as the group's summary, and the turns after it are the consolidation of the rest |
| Merging.MergeFirstTurn | transcribe.py:85-105 | the first turn covers `xs[..n]`: every segment below `n` has the first speaker and joined a turn shorter than `min_duration`, segment `n` fails that test, and the remaining turns are the consolidation of `xs[n..]` (the merge rule as an if-and-only-if) |
| Merging.MergeTurnHeads | transcribe.py:79-105 | the turns partition the input into consecutive groups with the first head 0; each turn takes its first segment's start and speaker and its last segment's end, and its text is the stripped space-joined group texts |
| Merging.TurnsOrdered | transcribe.py:85-105 | for input with `start <= end` and non-decreasing starts, every turn has `start <= end` and turn starts never decrease |
| Merging.MergeExample | transcribe.py:79-105 | `(0,0.3,0,a) (0.3,0.6,0,b) (0.6,2.0,1,c)` consolidates to `(0,0.6,0,"a b") (0.6,2.0,1,"c")` |
| Merging.TurnCanExceedMinDuration | transcribe.py:90-94 | the duration test applies before each merge, so a 0.9 s turn absorbs a 4.1 s segment and becomes 5 s long |
| Timestamps.TimedeltaStr | transcribe.py:25 | every `str(timedelta)` string, with or without a day prefix, has exactly two colons |
| Timestamps.TimestampColons | transcribe.py:21-30 | `format_timestamp` gives exactly two colons in both forms, so the `MM:SS` test at line 26 never matches |
| Timestamps.SrtPrefixNeverAdded | transcribe.py:23-28 | the subtitle timestamp is the plain timestamp followed by `,` and the `{ms:03d}` of the milliseconds: the `"00:"` prefix is never added |
| Timestamps.TimestampSingleLine | transcribe.py:21-30 | a timestamp contains no line break |
| Timestamps.ClockRoundTrip | transcribe.py:29-30 | within one day the plain timestamp is `H:MM:SS`, has no comma, and reads back as the second count |
| Timestamps.PlainTimestampDenotesSeconds | transcribe.py:29-30 | the plain timestamp of a time within one day denotes its whole seconds |
| Timestamps.MillisecondsSplit | transcribe.py:24 | the whole seconds times 1000 plus the truncated millisecond fraction is the time in milliseconds, truncated, and the fraction part is below 1000 |
| Timestamps.SrtTimestampDenotesMilliseconds | transcribe.py:23-28 | the subtitle timestamp of a time within one day reads back as the time in milliseconds, truncated |
| Timestamps.FormatExampleHour | transcribe.py:21-30 | 3661 s renders as `1:01:01` and as `1:01:01,000` |
| Timestamps.FormatExampleSeconds | transcribe.py:23-28 | 5 s renders as `0:00:05,000` in subtitles, with the hours unpadded |
| Timestamps.FormatExampleHalfSecond | transcribe.py:21-30 | 3662.5 s renders as `1:01:02` and as `1:01:02,500` |
| Render.TxtLine | transcribe.py:112 | a transcript line starts with `[` and ends with a line break |
| Render.TxtLineFields | transcribe.py:112 | a transcript line is `[a - b] Speaker n: text` and a line break, where `n` reads back as the speaker label plus one and, for times within one day, `a` and `b` read back as the whole seconds of the turn's start and end |
| Render.Transcript | transcribe.py:107-112 | the transcript is empty exactly when there are no turns; TranscriptAt gives its contents |
| Render.TranscriptOne | transcribe.py:111-112 | the transcript of a single turn is that turn's line |
| Render.TranscriptAt | transcribe.py:111-112 | for every turn `k`, the transcript is the lines of the turns before `k`, then turn `k`'s own line, then the lines of the turns after it: the loop writes each turn's line in order |
| Render.SrtBlockFields | transcribe.py:116-121 | block `i` is `num`, `a --> b` and `Speaker n: text` on three lines followed by a blank line, where `num` reads back as `i`, `n` as the speaker label plus one and, for times within one day, `a` and `b` as the turn's start and end in whole milliseconds, truncated |
| Render.SrtBlockEndsBlank | transcribe.py:119-121 | a subtitle block ends with a blank line |
| Render.Subtitles | transcribe.py:114-121 | the subtitle file is empty exactly when there are no turns; SubtitlesAt gives its contents and numbering |
| Render.NumberedAt | transcribe.py:116-121 | in a run of blocks numbered from `i`, turn `k` is written as block `i + k`, between the blocks of the turns before and after it |
| Render.SubtitlesAt | transcribe.py:116-121 | for every turn `k` (counting from 0), the subtitle file is the blocks of the turns before it, numbered from 1, then turn `k`'s block under number `k + 1`, then the blocks after it, numbered on from `k + 2`: `enumerate(..., start=1)` |
| Render.TxtLineBreaks | transcribe.py:112 | a transcript line holds exactly one line break more than its text |
| Render.TranscriptLines | transcribe.py:107-112 | the transcript has one line per turn, plus any line breaks inside the texts |
| Render.TranscriptAppend | transcribe.py:107-112 | the transcript of two runs of turns is the concatenation of their transcripts |
| Render.SrtBlockBreaks | transcribe.py:119-121 | a subtitle block holds exactly four line breaks more than its text |
| Render.SubtitleLines | transcribe.py:114-121 | the subtitle file has one four-line block per turn, plus any line breaks inside the texts |
| Render.SubtitlesAppend | transcribe.py:116-121 | subtitle numbering continues across a split: the blocks of the second run are numbered on from where the first stopped |
| Render.TxtLineExample | transcribe.py:112 | the turn `(3661, 3662.5, 0, "hello")` is written as `[1:01:01 - 1:01:02] Speaker 1: hello`, with the speaker shown 1-based |
| Render.SrtBlockExample | transcribe.py:116-121 | the same turn as block 1 is `1`, `1:01:01,000 --> 1:01:02,500`, `Speaker 1: hello` and a blank line |
| Pipeline.Consolidate | transcribe.py:134-149 | an empty assignment is skipped and a non-empty one is written: there are between 1 and `len` turns, and the transcript and subtitles are written from them |
| Pipeline.ProcessFile | transcribe.py:123-149 | as written, with the encoder and clustering calls returning: the file ends in the unpacking exception exactly when no segment survives the filter; a written file reports between 1 and 6 speakers |
| Pipeline.ProcessFileFixed | transcribe.py:133-136 | with the empty result unpacked as intended, and with the encoder and clustering calls returning, no file ends in an exception, and a file without a long enough segment is skipped |
| Pipeline.ProcessFileCrashesWithoutSpeech | transcribe.py:55-56 | a recording whose only segment lasts 0.2 s crashes as written and is skipped once corrected, whatever the encoder and clustering would do, since neither is called |
| Pipeline.FixedAgreesWithSpeech | transcribe.py:131-149 | on any input with a long enough segment, the corrected and the as-written pipelines give the same outcome |
| Pipeline.FixedWritesIffSpeech | transcribe.py:131-149 | when the clustering returns one label per embedding, the corrected pipeline writes files if and only if some segment is long enough, and skips the file otherwise |

## Left out

- `load_audio` and the waveform's contents: only its length matters to the filter, so the waveform is represented by a sample count.
- The speech recogniser (`WhisperModel.transcribe`): its segments are an input.
- The voice encoder, `AgglomerativeClustering` and `silhouette_score`: they are supplied as opaque functions. A silhouette call that raises is modelled as `Failed`. NaN scores are not modelled.
- Exceptions from the encoder and from `fit_predict`: both are assumed to return. scikit-learn's `AgglomerativeClustering` may reject a single sample, so a file with exactly one kept segment may raise at line 64. The model instead picks one speaker for it (`Clustering.SingleSegmentOneSpeaker`), and `Pipeline.ProcessFile` does not show that exception.
- IEEE floating point: times are exact reals. Rounding effects at line 24 are not modelled: in binary64, `(2.3 - int(2.3)) * 1000` is `299.99999999999983`, so the code writes 299 milliseconds where exact reals give 300.
- File I/O, `main`'s directory scan and extension filter, `print` and the `tqdm` loop: the outcome records what would be written instead.
- Timestamps.ClockRoundTrip: the read-back is proved only for times within one day. Longer times carry the `"D day(s), "` prefix, which `TimedeltaStr` models but the parser does not read.
- Clustering.ClusterSpeakers: states the label count only through `Zip`. That each label names a cluster below `n_speakers` is a property of the clustering library and is not modelled.

## Findings

| source | as written | input that shows it | evidently intended | confidence | as-written member | corrected member |
|---|---|---|---|---|---|---|
| transcribe.py:55-56 | when no segment survives the filter, `cluster_speakers` returns a bare `[]`, and `process_file` at line 133 unpacks that into two names, which raises; the encoder and the clustering are never called on such a file | one segment from 0.0 s to 0.2 s over one second of audio | return an empty assignment with a count, so the "no valid segments" skip at lines 134-136 runs | high, not executed | Pipeline.ProcessFileCrashesWithoutSpeech | Pipeline.ProcessFileFixed |

=== FILE: builtins.dfy ===
/** Models of the Python built-in operations the transcription script relies
    on: `int()` applied to a float, slicing a sequence, `str.strip`, `str()` of
    an integer, the `{n:0{w}d}` format spec and `str.split` with a one-character
    separator. Each is stated over unbounded integers, reals and `seq<char>`.
 */
module Builtins {

  datatype Option<T> = None | Some(value: T)

  /* ----------------------------------------------------------------------
     Numbers
     ---------------------------------------------------------------------- */

  /** `int(x)` for a float `x`: truncation toward zero. */
  function Trunc(x: real): (r: int)
    ensures 0.0 <= x ==> r as real <= x < r as real + 1.0
    ensures x < 0.0 ==> r as real - 1.0 < x <= r as real
  {
    if x >= 0.0 then x.Floor else -((-x).Floor)
  }

  /** The floor of a real is the unique integer `k` with `k <= y < k + 1`. */
  lemma FloorUnique(y: real, k: int)
    requires k as real <= y < k as real + 1.0
    ensures y.Floor == k
  {
  }

  /** Truncation of a non-negative real shifted by a whole number. */
  lemma FloorShift(n: int, y: real)
    requires 0.0 <= y
    ensures (n as real + y).Floor == n + y.Floor
  {
    FloorUnique(n as real + y, n + y.Floor);
  }

  /* ----------------------------------------------------------------------
     Slicing
     ---------------------------------------------------------------------- */

  /** Where one bound `i` of a slice `s[i:j]` (step 1) lands in a sequence of
      length `len`: a negative bound counts from the end, and the result is
      clamped to `[0, len]`. */
  function SliceIndex(i: int, len: nat): (r: nat)
    ensures r <= len
    ensures 0 <= i <= len ==> r == i
    ensures -(len as int) <= i < 0 ==> r == len as int + i
    ensures i > len ==> r == len
    ensures i < -(len as int) ==> r == 0
  {
    if i < 0 then (if len as int + i < 0 then 0 else len as int + i)
    else if i > len then len
    else i
  }

  /** `len(s[i:j])` for a sequence `s` of length `len`. */
  function SliceLen(i: int, j: int, len: nat): (r: nat)
    ensures r <= len
    ensures 0 <= i <= j <= len ==> r == j - i
    ensures 0 <= j <= i ==> r == 0
    ensures 0 <= i <= len <= j ==> r == len - i
  {
    var lo := SliceIndex(i, len);
    var hi := SliceIndex(j, len);
    if hi >= lo then hi - lo else 0
  }

  /* ----------------------------------------------------------------------
     Lines
     ---------------------------------------------------------------------- */

  /** A string without a line break. */
  predicate SingleLine(s: string) {
    forall i :: 0 <= i < |s| ==> s[i] != '\n'
  }

  lemma SingleLineAppend(a: string, b: string)
    requires SingleLine(a) && SingleLine(b)
    ensures SingleLine(a + b)
  {
  }

  /* ----------------------------------------------------------------------
     Whitespace and str.strip
     ---------------------------------------------------------------------- */

  /** The characters for which Python's `str.isspace()` holds. */
  const Whitespace: string :=
    "\t\n\U{0B}\U{0C}\r\U{1C}\U{1D}\U{1E}\U{1F} \U{85}\U{A0}\U{1680}"
    + "\U{2000}\U{2001}\U{2002}\U{2003}\U{2004}\U{2005}\U{2006}\U{2007}\U{2008}\U{2009}\U{200A}"
    + "\U{2028}\U{2029}\U{202F}\U{205F}\U{3000}"

  /** `c.isspace()`, as ranges of code points. */
  predicate IsSpace(c: char) {
    || '\t' <= c <= '\r' || '\U{1C}' <= c <= ' '
    || c == '\U{85}' || c == '\U{A0}' || c == '\U{1680}'
    || '\U{2000}' <= c <= '\U{200A}' || c == '\U{2028}' || c == '\U{2029}'
    || c == '\U{202F}' || c == '\U{205F}' || c == '\U{3000}'
  }

  /** The ranges accept exactly the 29 listed whitespace characters. */
  lemma IsSpaceWhitespace(c: char)
    ensures IsSpace(c) <==> c in Whitespace
    ensures |Whitespace| == 29
  {
  }

  /** `s.lstrip()`. */
  function TrimStart(s: string): string {
    if |s| > 0 && IsSpace(s[0]) then TrimStart(s[1..]) else s
  }

  /** `lstrip` removes the longest whitespace prefix: the result is a suffix
      of `s`, everything removed is whitespace, and the result does not start
      with whitespace. */
  lemma {:induction false} TrimStartSpec(s: string)
    ensures |TrimStart(s)| <= |s| && TrimStart(s) == s[|s| - |TrimStart(s)|..]
    ensures forall k :: 0 <= k < |s| - |TrimStart(s)| ==> IsSpace(s[k])
    ensures TrimStart(s) == [] || !IsSpace(TrimStart(s)[0])
    decreases |s|
  {
    if |s| > 0 && IsSpace(s[0]) {
      TrimStartSpec(s[1..]);
      forall k | 1 <= k < |s| - |TrimStart(s)|
        ensures IsSpace(s[k])
      {
        assert s[k] == s[1..][k - 1];
      }
    }
  }

  /** `s.rstrip()`. */
  function TrimEnd(s: string): string {
    if |s| > 0 && IsSpace(s[|s| - 1]) then TrimEnd(s[..|s| - 1]) else s
  }

  /** `rstrip` removes the longest whitespace suffix: the result is a prefix
      of `s`, everything removed is whitespace, and the result does not end
      with whitespace. */
  lemma {:induction false} TrimEndSpec(s: string)
    ensures |TrimEnd(s)| <= |s| && TrimEnd(s) == s[..|TrimEnd(s)|]
    ensures forall k :: |TrimEnd(s)| <= k < |s| ==> IsSpace(s[k])
    ensures TrimEnd(s) == [] || !IsSpace(TrimEnd(s)[|TrimEnd(s)| - 1])
    decreases |s|
  {
    if |s| > 0 && IsSpace(s[|s| - 1]) {
      TrimEndSpec(s[..|s| - 1]);
      forall k | |TrimEnd(s)| <= k < |s| - 1
        ensures IsSpace(s[k])
      {
        assert s[k] == s[..|s| - 1][k];
      }
    }
  }

  /** `s.strip()`. */
  function Strip(s: string): (r: string)
    ensures |r| <= |s|
    ensures r == [] || (!IsSpace(r[0]) && !IsSpace(r[|r| - 1]))
  {
    TrimStartSpec(s);
    TrimEndSpec(TrimStart(s));
    TrimEnd(TrimStart(s))
  }

  /** `s.strip()` is the infix of `s` obtained by removing the longest
      whitespace prefix and the longest whitespace suffix: everything outside
      the returned window is whitespace and the window's ends are not. */
  lemma StripIsInfix(s: string) returns (i: nat)
    ensures i + |Strip(s)| <= |s|
    ensures Strip(s) == s[i..i + |Strip(s)|]
    ensures forall k :: 0 <= k < i ==> IsSpace(s[k])
    ensures forall k :: i + |Strip(s)| <= k < |s| ==> IsSpace(s[k])
  {
    var t := TrimStart(s);
    TrimStartSpec(s);
    TrimEndSpec(t);
    i := |s| - |t|;
    var r := TrimEnd(t);
    assert r == t[..|r|];
    assert t == s[i..];
    forall k | i + |r| <= k < |s|
      ensures IsSpace(s[k])
    {
      assert s[k] == t[k - i];
    }
  }

  /** A string that neither starts nor ends with whitespace is its own strip. */
  lemma StripTrimmed(s: string)
    requires s == [] || (!IsSpace(s[0]) && !IsSpace(s[|s| - 1]))
    ensures Strip(s) == s
  {
  }

  /** Stripping twice is stripping once. */
  lemma StripIdempotent(s: string)
    ensures Strip(Strip(s)) == Strip(s)
  {
    StripTrimmed(Strip(s));
  }

  /* ----------------------------------------------------------------------
     Decimal digits: str(int), int(str) and {n:0{w}d}
     ---------------------------------------------------------------------- */

  predicate IsDigit(c: char) {
    '0' <= c <= '9'
  }

  predicate AllDigits(s: string) {
    forall i :: 0 <= i < |s| ==> IsDigit(s[i])
  }

  /** Digits and the minus sign: the characters a formatted integer uses. */
  predicate NumeralChars(s: string) {
    forall i :: 0 <= i < |s| ==> IsDigit(s[i]) || s[i] == '-'
  }

  function DigitChar(d: nat): (c: char)
    requires d < 10
    ensures IsDigit(c)
  {
    (48 + d) as char
  }

  function DigitValue(c: char): (d: nat)
    requires IsDigit(c)
    ensures d < 10
  {
    c as int - 48
  }

  /** `str(n)` for a non-negative integer: decimal digits, no leading zero. */
  function NatStr(n: nat): (r: string)
    ensures |r| >= 1 && AllDigits(r)
    ensures r[0] == '0' ==> n == 0 && |r| == 1
  {
    if n < 10 then [DigitChar(n)] else NatStr(n / 10) + [DigitChar(n % 10)]
  }

  /** `str(i)` for any integer. */
  function IntStr(i: int): (r: string)
    ensures |r| >= 1
    ensures r[0] == '-' <==> i < 0
    ensures NumeralChars(r)
    ensures i < 0 ==> AllDigits(r[1..])
    ensures i >= 0 ==> AllDigits(r)
    ensures i >= 0 && r[0] == '0' ==> i == 0 && |r| == 1
    ensures i < 0 ==> |r| >= 2 && r[1] != '0'
  {
    if i < 0 then "-" + NatStr(-i) else NatStr(i)
  }

  /** The number a string of decimal digits denotes (leading zeros allowed). */
  function DigitsValue(s: string): nat
    requires AllDigits(s)
  {
    if s == [] then 0 else DigitsValue(s[..|s| - 1]) * 10 + DigitValue(s[|s| - 1])
  }

  /** `int(s)` restricted to unsigned decimal strings; `None` where Python would raise. */
  function ParseNat(s: string): Option<nat> {
    if |s| > 0 && AllDigits(s) then Some(DigitsValue(s)) else None
  }

  /** `int(s)` for an optionally signed decimal string. */
  function ParseInt(s: string): Option<int> {
    if |s| > 0 && s[0] == '-' then
      match ParseNat(s[1..])
      case Some(n) => Some(-(n as int))
      case None => None
    else
      match ParseNat(s)
      case Some(n) => Some(n)
      case None => None
  }

  /** `int(str(n)) == n` for naturals. */
  lemma {:induction false} NatStrRoundTrip(n: nat)
    ensures ParseNat(NatStr(n)) == Some(n)
  {
    var s := NatStr(n);
    if n < 10 {
      assert s == [DigitChar(n)];
      assert s[..|s| - 1] == [];
      assert DigitValue(DigitChar(n)) == n;
      assert DigitsValue(s) == n;
    } else {
      NatStrRoundTrip(n / 10);
      assert s[..|s| - 1] == NatStr(n / 10);
      assert DigitValue(s[|s| - 1]) == n % 10;
    }
  }

  /** `int(str(i)) == i` for every integer. */
  lemma IntStrRoundTrip(i: int)
    ensures ParseInt(IntStr(i)) == Some(i)
  {
    if i < 0 {
      NegatedReadsBack(-i);
      assert IntStr(i) == "-" + NatStr(-i);
    } else {
      NatStrRoundTrip(i);
      assert IntStr(i) == NatStr(i);
    }
  }

  /** A minus sign before the digits of a positive number reads back as its
      negation. */
  lemma NegatedReadsBack(n: nat)
    requires n > 0
    ensures ParseInt("-" + NatStr(n)) == Some(-(n as int))
  {
    var d := NatStr(n);
    NatStrRoundTrip(n);
    assert ("-" + d)[1..] == d;
  }

  function Pow10(w: nat): (p: nat)
    ensures p >= 1
  {
    if w == 0 then 1 else 10 * Pow10(w - 1)
  }

  /** A natural below `10^w` (w >= 1) has at most `w` digits. */
  lemma {:induction false} NatStrLength(n: nat, w: nat)
    requires 1 <= w && n < Pow10(w)
    ensures |NatStr(n)| <= w
  {
    if n >= 10 {
      NatStrLength(n / 10, w - 1);
    }
  }

  function Zeros(k: nat): (r: string)
    ensures |r| == k && forall i :: 0 <= i < k ==> r[i] == '0'
  {
    seq(k, _ => '0')
  }

  /** `s` left-padded with zeros to width `w`. */
  function ZeroPad(s: string, w: nat): (r: string)
    ensures |r| == if |s| < w then w else |s|
  {
    if |s| < w then Zeros(w - |s|) + s else s
  }

  /** `f"{n:0{w}d}"`: the sign counts toward the width and padding goes
      between the sign and the digits. */
  function FormatD(n: int, w: nat): (r: string)
    ensures |r| >= 1 && |r| >= w
    ensures r[0] == '-' <==> n < 0
    ensures NumeralChars(r)
    ensures n < 0 ==> AllDigits(r[1..])
    ensures n >= 0 ==> AllDigits(r)
  {
    if n < 0 then "-" + ZeroPad(NatStr(-n), if w == 0 then 0 else w - 1)
    else ZeroPad(NatStr(n), w)
  }

  /** Leading zeros do not change the value of a digit string. */
  lemma {:induction false} DigitsValueZeros(k: nat, s: string)
    requires AllDigits(s)
    ensures AllDigits(Zeros(k) + s)
    ensures DigitsValue(Zeros(k) + s) == DigitsValue(s)
  {
    var z := Zeros(k) + s;
    if s == [] {
      if k > 0 {
        assert z[..|z| - 1] == Zeros(k - 1) + [];
        DigitsValueZeros(k - 1, []);
      }
    } else {
      assert z[..|z| - 1] == Zeros(k) + s[..|s| - 1];
      DigitsValueZeros(k, s[..|s| - 1]);
    }
  }

  /** `f"{n:0{w}d}"` of a natural below `10^w` has exactly `w` digits and reads back
      as the same number. */
  lemma FormatDRoundTrip(n: nat, w: nat)
    requires 1 <= w && n < Pow10(w)
    ensures |FormatD(n, w)| == w && AllDigits(FormatD(n, w))
    ensures ParseNat(FormatD(n, w)) == Some(n)
  {
    NatStrLength(n, w);
    NatStrRoundTrip(n);
    DigitsValueZeros(w - |NatStr(n)|, NatStr(n));
  }

  /** Zero-padded digits of a natural read back as that natural. */
  lemma PaddedReadsBack(m: nat, pad: nat)
    ensures ParseNat(ZeroPad(NatStr(m), pad)) == Some(m)
  {
    var d := NatStr(m);
    var z := if |d| < pad then pad - |d| else 0;
    assert ZeroPad(d, pad) == Zeros(z) + d by {
      if |d| >= pad {
        assert Zeros(0) + d == d;
      }
    }
    NatStrRoundTrip(m);
    DigitsValueZeros(z, d);
  }

  /** Whatever the width, `int(f"{n:0{w}d}") == n`, negative `n` included:
      the padding zeros do not change the value. */
  lemma FormatDReadsBack(n: int, w: nat)
    ensures ParseInt(FormatD(n, w)) == Some(n)
  {
    if n < 0 {
      NegativeReadsBack(n, w);
    } else {
      NonNegativeReadsBack(n, w);
    }
  }

  /** `FormatDReadsBack` for a negative number. */
  lemma NegativeReadsBack(n: int, w: nat)
    requires n < 0
    ensures ParseInt(FormatD(n, w)) == Some(n)
  {
    NegativePieces(n, w);
    SignedPaddedReadsBack(-n, if w == 0 then 0 else w - 1);
  }

  /** `FormatDReadsBack` for a non-negative number. */
  lemma NonNegativeReadsBack(n: int, w: nat)
    requires n >= 0
    ensures ParseInt(FormatD(n, w)) == Some(n)
  {
    NonNegativePieces(n, w);
    PaddedReadsBack(n, w);
  }

  /** `FormatD` of a negative number: the sign, then the digits padded to
      one less than the width. */
  lemma NegativePieces(n: int, w: nat)
    requires n < 0
    ensures FormatD(n, w) == "-" + ZeroPad(NatStr(-n), if w == 0 then 0 else w - 1)
  {
  }

  /** `FormatD` of a non-negative number: the digits padded to the width. */
  lemma NonNegativePieces(n: int, w: nat)
    requires n >= 0
    ensures FormatD(n, w) == ZeroPad(NatStr(n), w)
  {
  }

  /** A minus sign before zero-padded digits reads back as the negation. */
  lemma SignedPaddedReadsBack(m: nat, pad: nat)
    ensures ParseInt("-" + ZeroPad(NatStr(m), pad)) == Some(-(m as int))
  {
    var p := ZeroPad(NatStr(m), pad);
    PaddedReadsBack(m, pad);
    assert ("-" + p)[1..] == p;
  }

  /* ----------------------------------------------------------------------
     Counting and str.split
     ---------------------------------------------------------------------- */

  /** `s.count(c)`. */
  function Count(s: string, c: char): nat {
    if s == [] then 0 else (if s[0] == c then 1 else 0) + Count(s[1..], c)
  }

  lemma {:induction false} CountAppend(a: string, b: string, c: char)
    ensures Count(a + b, c) == Count(a, c) + Count(b, c)
  {
    if a == [] {
      assert a + b == b;
    } else {
      assert (a + b)[0] == a[0];
      assert (a + b)[1..] == a[1..] + b;
      CountAppend(a[1..], b, c);
    }
  }

  /** A character that does not occur is counted zero times. */
  lemma {:induction false} CountAbsent(s: string, c: char)
    requires forall i :: 0 <= i < |s| ==> s[i] != c
    ensures Count(s, c) == 0
  {
    if s != [] {
      CountAbsent(s[1..], c);
    }
  }

  /** `s.split(c)` for a one-character separator `c`. */
  function SplitOn(s: string, c: char): (r: seq<string>)
    ensures |r| == Count(s, c) + 1
  {
    if s == [] then [[]]
    else
      var rest := SplitOn(s[1..], c);
      if s[0] == c then [[]] + rest else [[s[0]] + rest[0]] + rest[1..]
  }

  /** Splitting a string with no separator in it yields the string itself. */
  lemma {:induction false} SplitOnAbsent(s: string, c: char)
    requires forall i :: 0 <= i < |s| ==> s[i] != c
    ensures SplitOn(s, c) == [s]
  {
    if s != [] {
      SplitOnAbsent(s[1..], c);
      assert [s[0]] + s[1..] == s;
    }
  }

  /** Splitting `a + c + b`, where `a` has no separator, yields `a` followed
      by the pieces of `b`. */
  lemma {:induction false} SplitOnJoin(a: string, b: string, c: char)
    requires forall i :: 0 <= i < |a| ==> a[i] != c
    ensures SplitOn(a + [c] + b, c) == [a] + SplitOn(b, c)
  {
    if a == [] {
      assert a + [c] + b == [c] + b;
      assert ([c] + b)[1..] == b;
    } else {
      assert (a + [c] + b)[1..] == a[1..] + [c] + b;
      SplitOnJoin(a[1..], b, c);
      assert [a[0]] + a[1..] == a;
    }
  }
}

=== FILE: clustering.dfy ===
/** `cluster_speakers`: filter and embed the segments, then pick the speaker
    count whose clustering has the best silhouette score, and pair each kept
    segment with its label. The clustering and the silhouette computation are
    library calls and are supplied as functions: `cluster(embs, k)` is the
    label sequence `AgglomerativeClustering(n_clusters=k).fit_predict(embs)`,
    and `silhouette(embs, labels)` is `silhouette_score(embs, labels)`, or
    `Failed` where that call raises.
 */
module Clustering {
  import opened Builtins
  import opened Segments

  /** Outcome of one `silhouette_score` call. */
  datatype Silhouette = Score(value: real) | Failed

  /** A kept segment paired with its speaker label, as `zip` produces it. */
  datatype Assigned = Assigned(seg: Segment, speaker: int)

  /** The running best of the selection loop: `best_score`, `best_labels`
      (`None` until a candidate is taken) and `best_n`. */
  datatype Choice = Choice(score: real, labels: Option<seq<int>>, count: int)

  /** What `cluster_speakers` returns: a bare `[]` when no segment survives
      the filter, an exception from `zip(valid_segments, None)` when no
      candidate count was tried, or the assignment and the chosen count. */
  datatype ClusterOutcome =
    | NoSegments
    | LabelsMissing
    | Clustered(assignment: seq<Assigned>, speakers: int)

  /** `max_speakers`' default value. */
  const DefaultMaxSpeakers: int := 6

  /** The score the loop gives candidate `k`: 0 for one cluster, where no
      silhouette is defined, and -1 where the silhouette call fails. */
  function CandidateScore(k: int, sil: Silhouette): real {
    if k == 1 then 0.0
    else match sil
      case Score(v) => v
      case Failed => -1.0
  }

  /** A count other than 1 outscores the single-cluster candidate exactly
      when its silhouette was computed and is positive; a failed silhouette
      call never does. */
  lemma BeatsOneCluster(k: int, sil: Silhouette, one: Silhouette)
    requires k != 1
    ensures CandidateScore(k, sil) > CandidateScore(1, one) <==> sil.Score? && sil.value > 0.0
    ensures sil.Failed? ==> CandidateScore(k, sil) < CandidateScore(1, one)
  {
  }

  /** The initial state of the selection loop. */
  const NoChoice: Choice := Choice(-1.0, None, 1)

  /** The loop `for n_speakers in range(k, hi + 1)` from a running best `acc`.
      Candidate `j` replaces the running best only when its score is strictly
      greater. */
  function SelectFrom(k: int, hi: int, acc: Choice, labelsFor: int -> seq<int>, silFor: int -> Silhouette)
    : (r: Choice)
    requires 1 <= k
    requires k == 1 ==> acc == NoChoice
    requires k > 1 ==> 1 <= acc.count < k && acc.labels == Some(labelsFor(acc.count))
                       && acc.score == CandidateScore(acc.count, silFor(acc.count))
    requires forall j :: 1 <= j < k ==> CandidateScore(j, silFor(j)) <= acc.score
    requires forall j :: 1 <= j < acc.count ==> CandidateScore(j, silFor(j)) < acc.score
    ensures hi < k ==> r == acc
    ensures k <= hi ==> 1 <= r.count <= hi && r.labels == Some(labelsFor(r.count))
                        && r.score == CandidateScore(r.count, silFor(r.count))
    ensures forall j :: 1 <= j <= hi ==> CandidateScore(j, silFor(j)) <= r.score
    ensures forall j :: 1 <= j < r.count ==> CandidateScore(j, silFor(j)) < r.score
    decreases hi - k
  {
    if k > hi then acc
    else
      var s := CandidateScore(k, silFor(k));
      var acc' := if s > acc.score then Choice(s, Some(labelsFor(k)), k) else acc;
      SelectFrom(k + 1, hi, acc', labelsFor, silFor)
  }

  /** Best-speaker-count selection over `1 .. hi` with `hi = min(max_speakers, N)`.
      When the range is non-empty the result is the FIRST count whose score
      is the maximum: its score is at least every candidate's and strictly
      above every earlier candidate's. A count other than 1 is chosen only if
      its silhouette was computed and is positive, so a failed candidate is
      never chosen. When the range is empty no labels are chosen. */
  function SelectSpeakerCount(hi: int, labelsFor: int -> seq<int>, silFor: int -> Silhouette): (r: Choice)
    ensures hi < 1 ==> r.labels == None && r.count == 1
    ensures 1 <= hi ==> 1 <= r.count <= hi && r.labels == Some(labelsFor(r.count))
    ensures forall k :: 1 <= k <= hi ==> CandidateScore(k, silFor(k)) <= CandidateScore(r.count, silFor(r.count))
    ensures forall k :: 1 <= k < r.count ==> CandidateScore(k, silFor(k)) < CandidateScore(r.count, silFor(r.count))
    ensures 1 <= hi && r.count != 1 ==> silFor(r.count).Score? && silFor(r.count).value > 0.0
  {
    SelectFrom(1, hi, NoChoice, labelsFor, silFor)
  }

  /** `list(zip(segs, labels))`: pairs position by position and stops at the
      shorter input. */
  function Zip(segs: seq<Segment>, labels: seq<int>): (r: seq<Assigned>)
    ensures |r| == if |segs| <= |labels| then |segs| else |labels|
    ensures forall i :: 0 <= i < |r| ==> r[i] == Assigned(segs[i], labels[i])
  {
    if segs == [] || labels == [] then []
    else [Assigned(segs[0], labels[0])] + Zip(segs[1..], labels[1..])
  }

  /** The embeddings of the kept segments, as `segment_embeddings`. */
  function Embeddings<E>(segs: seq<Segment>, wavLen: nat, embed: ((nat, nat)) -> E): seq<E> {
    EmbedSegments(segs, wavLen, embed).1
  }

  /** `cluster_speakers(wav, segments, max_speakers)` over a waveform of
      `wavLen` samples. */
  function ClusterSpeakers<E>(
    wavLen: nat, segs: seq<Segment>, maxSpeakers: int,
    embed: ((nat, nat)) -> E,
    cluster: (seq<E>, int) -> seq<int>,
    silhouette: (seq<E>, seq<int>) -> Silhouette)
    : (r: ClusterOutcome)
    ensures r.NoSegments? <==> forall i :: 0 <= i < |segs| ==> !LongEnough(segs[i], wavLen)
    ensures r.LabelsMissing? <==> maxSpeakers < 1 && exists i :: 0 <= i < |segs| && LongEnough(segs[i], wavLen)
    ensures r.Clustered? ==>
              var kept := KeptSegments(segs, wavLen);
              var labels := cluster(Embeddings(segs, wavLen, embed), r.speakers);
              && 1 <= r.speakers <= maxSpeakers && r.speakers <= |kept|
              && |r.assignment| == (if |kept| <= |labels| then |kept| else |labels|)
              && (forall i :: 0 <= i < |r.assignment| ==> r.assignment[i] == Assigned(kept[i], labels[i]))
    ensures r.Clustered? ==>
              var embs := Embeddings(segs, wavLen, embed);
              var best := CandidateScore(r.speakers, silhouette(embs, cluster(embs, r.speakers)));
              && (forall k :: 1 <= k <= maxSpeakers && k <= |KeptSegments(segs, wavLen)| ==>
                    CandidateScore(k, silhouette(embs, cluster(embs, k))) <= best)
              && (forall k :: 1 <= k < r.speakers ==> CandidateScore(k, silhouette(embs, cluster(embs, k))) < best)
    ensures r.Clustered? && r.speakers != 1 ==>
              var embs := Embeddings(segs, wavLen, embed);
              silhouette(embs, cluster(embs, r.speakers)).Score?
              && silhouette(embs, cluster(embs, r.speakers)).value > 0.0
  {
    var e := EmbedSegments(segs, wavLen, embed);
    var kept := e.0;
    var embs := e.1;
    if |embs| == 0 then
      KeptEmpty(segs, wavLen);
      NoSegments
    else
      KeptNonEmpty(segs, wavLen);
      var hi := if maxSpeakers < |embs| then maxSpeakers else |embs|;
      var silFor := k => silhouette(embs, cluster(embs, k));
      var choice := SelectSpeakerCount(hi, k => cluster(embs, k), silFor);
      assert forall k :: silFor(k) == silhouette(embs, cluster(embs, k));
      assert |kept| == |embs|;
      match choice.labels
      case None => LabelsMissing
      case Some(labels) => Clustered(Zip(kept, labels), choice.count)
  }

  /** No segment is kept exactly when none is long enough. */
  lemma KeptEmpty(segs: seq<Segment>, wavLen: nat)
    requires KeptSegments(segs, wavLen) == []
    ensures forall i :: 0 <= i < |segs| ==> !LongEnough(segs[i], wavLen)
  {
    var idx := KeptIndices(segs, wavLen);
  }

  lemma KeptNonEmpty(segs: seq<Segment>, wavLen: nat)
    requires KeptSegments(segs, wavLen) != []
    ensures exists i :: 0 <= i < |segs| && LongEnough(segs[i], wavLen)
  {
    var idx := KeptIndices(segs, wavLen);
    assert LongEnough(segs[idx[0]], wavLen);
  }

  /** With a single surviving segment the only candidate is one speaker. */
  lemma SingleSegmentOneSpeaker<E>(
    wavLen: nat, segs: seq<Segment>, maxSpeakers: int,
    embed: ((nat, nat)) -> E,
    cluster: (seq<E>, int) -> seq<int>,
    silhouette: (seq<E>, seq<int>) -> Silhouette)
    requires |KeptSegments(segs, wavLen)| == 1
    requires maxSpeakers >= 1
    ensures ClusterSpeakers(wavLen, segs, maxSpeakers, embed, cluster, silhouette).Clustered?
    ensures ClusterSpeakers(wavLen, segs, maxSpeakers, embed, cluster, silhouette).speakers == 1
  {
    KeptNonEmpty(segs, wavLen);
  }

  /** When the clustering library returns one label per embedding (as
      `fit_predict` does), the assignment has exactly one entry per kept
      segment, in input order. */
  lemma AssignmentCoversKept<E>(
    wavLen: nat, segs: seq<Segment>, maxSpeakers: int,
    embed: ((nat, nat)) -> E,
    cluster: (seq<E>, int) -> seq<int>,
    silhouette: (seq<E>, seq<int>) -> Silhouette)
    requires forall embs: seq<E>, k: int :: |cluster(embs, k)| == |embs|
    requires ClusterSpeakers(wavLen, segs, maxSpeakers, embed, cluster, silhouette).Clustered?
    ensures var r := ClusterSpeakers(wavLen, segs, maxSpeakers, embed, cluster, silhouette);
            |r.assignment| == |KeptSegments(segs, wavLen)|
            && forall i :: 0 <= i < |r.assignment| ==> r.assignment[i].seg == KeptSegments(segs, wavLen)[i]
  {
  }
}

=== FILE: merge.dfy ===
/** `merge_short_segments`: a left-to-right fold over the speaker-labelled
    segments that keeps one running turn. The next segment is absorbed into
    the running turn when it has the same speaker and the running turn,
    measured before the merge, is shorter than `min_duration`; otherwise the
    running turn is emitted with its text stripped and the segment opens a
    new one.
 */
module Merging {
  import opened Builtins
  import opened Segments
  import opened Clustering

  /** `min_duration`'s default value, in seconds. */
  const DefaultMinDuration: real := 1.0

  /** A spoken turn `(start, end, speaker, text)`. */
  datatype Turn = Turn(start: real, end: real, speaker: int, text: string)

  /** The running turn opened by a segment. */
  function Open(x: Assigned): Turn {
    Turn(x.seg.start, x.seg.end, x.speaker, x.seg.text)
  }

  /** The merge test of the loop, evaluated before the merge. */
  predicate Absorbs(run: Turn, x: Assigned, minDuration: real) {
    x.speaker == run.speaker && run.end - run.start < minDuration
  }

  /** The running turn after absorbing `x`: its end moves to `x`'s end and
      `" " + x.text` is appended. */
  function Absorb(run: Turn, x: Assigned): Turn {
    run.(end := x.seg.end, text := run.text + " " + x.seg.text)
  }

  /** A turn as it is emitted: its text stripped. */
  function Close(run: Turn): Turn {
    run.(text := Strip(run.text))
  }

  /** The loop body applied to the remaining segments, from running turn `run`. */
  function MergeRun(run: Turn, rest: seq<Assigned>, minDuration: real): (r: seq<Turn>)
    ensures 1 <= |r| <= |rest| + 1
    decreases |rest|
  {
    if rest == [] then [Close(run)]
    else if Absorbs(run, rest[0], minDuration) then
      MergeRun(Absorb(run, rest[0]), rest[1..], minDuration)
    else
      [Close(run)] + MergeRun(Open(rest[0]), rest[1..], minDuration)
  }

  /** `merge_short_segments(clustered_segments, min_duration)`. */
  function MergeShortSegments(xs: seq<Assigned>, minDuration: real): (r: seq<Turn>)
    ensures xs == [] <==> r == []
    ensures |r| <= |xs|
  {
    if xs == [] then [] else MergeRun(Open(xs[0]), xs[1..], minDuration)
  }

  /* ----------------------------------------------------------------------
     The grouping the fold performs
     ---------------------------------------------------------------------- */

  /** `" ".join` of the texts of a group, built left to right as the loop
      accumulates it. */
  function JoinTexts(g: seq<Assigned>): string
    decreases |g|
  {
    if |g| == 0 then ""
    else if |g| == 1 then g[0].seg.text
    else JoinTexts(g[..|g| - 1]) + " " + g[|g| - 1].seg.text
  }

  /** The turn a group of consecutive segments becomes: the first segment's
      start and speaker, the last segment's end, the space-joined texts. */
  function Summary(g: seq<Assigned>): Turn
    requires |g| > 0
  {
    Turn(g[0].seg.start, g[|g| - 1].seg.end, g[0].speaker, Strip(JoinTexts(g)))
  }

  /** The running turn after the first `|g|` segments were all absorbed. */
  function RunOf(g: seq<Assigned>): Turn
    requires |g| > 0
  {
    Turn(g[0].seg.start, g[|g| - 1].seg.end, g[0].speaker, JoinTexts(g))
  }

  /** The merge rule stated on the input: segment `j` joins the turn opened
      by `xs[0]` when it has that turn's speaker and the turn, as it stood
      after segment `j - 1`, lasted less than `minDuration`. */
  predicate JoinsFirstTurn(xs: seq<Assigned>, j: int, minDuration: real)
    requires 0 < j < |xs|
  {
    xs[j].speaker == xs[0].speaker && xs[j - 1].seg.end - xs[0].seg.start < minDuration
  }

  /** The length of the first group: the merge rule holds for every segment
      below `n` and fails for segment `n`, if any. */
  lemma {:induction false} GroupLength(xs: seq<Assigned>, m: nat, minDuration: real) returns (n: nat)
    requires 1 <= m <= |xs|
    requires forall j :: 0 < j < m ==> JoinsFirstTurn(xs, j, minDuration)
    ensures m <= n <= |xs|
    ensures forall j :: 0 < j < n ==> JoinsFirstTurn(xs, j, minDuration)
    ensures n < |xs| ==> !JoinsFirstTurn(xs, n, minDuration)
    decreases |xs| - m
  {
    if m == |xs| || !JoinsFirstTurn(xs, m, minDuration) {
      n := m;
    } else {
      n := GroupLength(xs, m + 1, minDuration);
    }
  }

  /** Generalisation of `MergeFirstTurn` to a running turn that has already
      absorbed the first `m` segments of a first group of `n`. */
  lemma {:induction false} MergeRunGroup(xs: seq<Assigned>, m: nat, n: nat, minDuration: real)
    requires 1 <= m <= n <= |xs|
    requires forall j :: m <= j < n ==> JoinsFirstTurn(xs, j, minDuration)
    requires n < |xs| ==> !JoinsFirstTurn(xs, n, minDuration)
    ensures MergeRun(RunOf(xs[..m]), xs[m..], minDuration)
            == [Summary(xs[..n])] + MergeShortSegments(xs[n..], minDuration)
    decreases n - m
  {
    if m == n {
      GroupEnds(xs, n, minDuration);
    } else {
      MergeRunGroup(xs, m + 1, n, minDuration);
      AbsorbStep(xs, m, [Summary(xs[..n])] + MergeShortSegments(xs[n..], minDuration), minDuration);
    }
  }

  /** A running turn that has absorbed the first `n` segments and does not
      absorb segment `n` (or has none left) is emitted as the first turn. */
  lemma GroupEnds(xs: seq<Assigned>, n: nat, minDuration: real)
    requires 1 <= n <= |xs|
    requires n < |xs| ==> !JoinsFirstTurn(xs, n, minDuration)
    ensures MergeRun(RunOf(xs[..n]), xs[n..], minDuration)
            == [Summary(xs[..n])] + MergeShortSegments(xs[n..], minDuration)
  {
    if n == |xs| {
      assert xs[n..] == [];
    } else {
      AbsorbJoins(xs, n, minDuration);
      StopStep(xs, n, minDuration);
    }
  }

  /** The running turn of the first `m` segments absorbs segment `m` exactly
      when the merge rule holds for it. */
  lemma AbsorbJoins(xs: seq<Assigned>, m: nat, minDuration: real)
    requires 1 <= m < |xs|
    ensures Absorbs(RunOf(xs[..m]), xs[m], minDuration) <==> JoinsFirstTurn(xs, m, minDuration)
  {
  }

  /** When segment `m` satisfies the merge rule,
      the fold from there produces what the fold from the running turn of the
      first `m + 1` produces. */
  lemma AbsorbStep(xs: seq<Assigned>, m: nat, turns: seq<Turn>, minDuration: real)
    requires 1 <= m < |xs|
    requires JoinsFirstTurn(xs, m, minDuration)
    requires MergeRun(RunOf(xs[..m + 1]), xs[m + 1..], minDuration) == turns
    ensures MergeRun(RunOf(xs[..m]), xs[m..], minDuration) == turns
  {
    AbsorbJoins(xs, m, minDuration);
    AbsorbUnfold(xs, m, minDuration);
  }

  lemma AbsorbUnfold(xs: seq<Assigned>, m: nat, minDuration: real)
    requires 1 <= m < |xs|
    requires Absorbs(RunOf(xs[..m]), xs[m], minDuration)
    ensures MergeRun(RunOf(xs[..m]), xs[m..], minDuration)
            == MergeRun(RunOf(xs[..m + 1]), xs[m + 1..], minDuration)
  {
    assert xs[..m + 1][..m] == xs[..m];
    assert Absorb(RunOf(xs[..m]), xs[m]) == RunOf(xs[..m + 1]);
    assert xs[m..][1..] == xs[m + 1..];
  }

  /** The running turn of the first `m` segments does not absorb segment
      `m`: the merge rule fails for it, and the running turn is emitted as
      the summary of `xs[..m]` before the rest is consolidated. */
  lemma StopStep(xs: seq<Assigned>, m: nat, minDuration: real)
    requires 1 <= m < |xs|
    requires !Absorbs(RunOf(xs[..m]), xs[m], minDuration)
    ensures MergeRun(RunOf(xs[..m]), xs[m..], minDuration)
            == [Summary(xs[..m])] + MergeShortSegments(xs[m..], minDuration)
  {
    assert xs[m..][0] == xs[m];
    assert xs[m..][1..] == xs[m + 1..];
  }

  /** The fold's first turn: for non-empty input there is an `n` such that
      segments `1 .. n-1` all satisfy the merge rule, segment `n` (if any)
      does not, the first turn summarises `xs[..n]`, and the remaining turns
      are the consolidation of `xs[n..]`. So a segment is absorbed if and only
      if its speaker equals the running speaker and the pre-merge duration is
      below `minDuration`. */
  lemma MergeFirstTurn(xs: seq<Assigned>, minDuration: real) returns (n: nat)
    requires |xs| > 0
    ensures 1 <= n <= |xs|
    ensures forall j :: 0 < j < n ==> JoinsFirstTurn(xs, j, minDuration)
    ensures n < |xs| ==> !JoinsFirstTurn(xs, n, minDuration)
    ensures MergeShortSegments(xs, minDuration) == [Summary(xs[..n])] + MergeShortSegments(xs[n..], minDuration)
  {
    assert RunOf(xs[..1]) == Open(xs[0]);
    n := GroupLength(xs, 1, minDuration);
    MergeRunGroup(xs, 1, n, minDuration);
  }

  /** Where each turn's group ends in the input, given the group heads. */
  function GroupEnd(heads: seq<nat>, k: nat, len: nat): nat
    requires k < |heads|
  {
    if k + 1 < |heads| then heads[k + 1] else len
  }

  /** Turn `k` of `r` summarises group `k` of `xs`, the segments from
      `heads[k]` up to the next head. */
  predicate GroupAt(xs: seq<Assigned>, heads: seq<nat>, r: seq<Turn>, k: nat)
    requires k < |heads| && k < |r|
  {
    heads[k] < GroupEnd(heads, k, |xs|) <= |xs|
    && r[k] == Summary(xs[heads[k]..GroupEnd(heads, k, |xs|)])
  }

  /** Head `k` of `heads` is head `k - 1` of `tail` moved past a first group
      of `n` segments, and so is the end of its group. */
  predicate ShiftedAt(heads: seq<nat>, tail: seq<nat>, n: nat, restLen: nat, k: nat)
    requires 1 <= k < |heads| && |heads| == |tail| + 1
  {
    heads[k] == tail[k - 1] + n && GroupEnd(heads, k, restLen + n) == GroupEnd(tail, k - 1, restLen) + n
  }

  /** The consolidated turns partition the input into consecutive groups:
      turn `k` covers `xs[heads[k] .. GroupEnd(heads, k)]`, starts at its
      first segment's start with that segment's speaker, ends at its last
      segment's end, and carries the stripped space-joined texts. The heads
      are strictly increasing and the first is 0, so the turns keep the input
      order and there are between 1 and `|xs|` of them for non-empty input. */
  lemma {:induction false} MergeTurnHeads(xs: seq<Assigned>, minDuration: real) returns (heads: seq<nat>)
    ensures |heads| == |MergeShortSegments(xs, minDuration)|
    ensures |xs| > 0 ==> |heads| > 0 && heads[0] == 0
    ensures forall k :: 0 <= k < |heads| ==> heads[k] < GroupEnd(heads, k, |xs|) <= |xs|
    ensures forall k :: 0 <= k < |heads| ==>
              MergeShortSegments(xs, minDuration)[k] == Summary(xs[heads[k]..GroupEnd(heads, k, |xs|)])
    decreases |xs|
  {
    if xs == [] {
      heads := [];
    } else {
      var n := MergeFirstTurn(xs, minDuration);
      var tailHeads := MergeTurnHeads(xs[n..], minDuration);
      heads := HeadsStep(xs, n, tailHeads, MergeShortSegments(xs, minDuration), MergeShortSegments(xs[n..], minDuration));
    }
  }

  /** `MergeTurnHeads` one group further: from the groups `tailHeads` of the
      turns `rr` of `xs[n..]` to the groups of `r`, the first `n` segments'
      summary followed by `rr`. */
  lemma HeadsStep(xs: seq<Assigned>, n: nat, tailHeads: seq<nat>, r: seq<Turn>, rr: seq<Turn>) returns (heads: seq<nat>)
    requires 1 <= n <= |xs|
    requires r == [Summary(xs[..n])] + rr
    requires |tailHeads| == |rr|
    requires |xs[n..]| > 0 ==> |tailHeads| > 0 && tailHeads[0] == 0
    requires forall k :: 0 <= k < |tailHeads| ==> tailHeads[k] < GroupEnd(tailHeads, k, |xs[n..]|) <= |xs[n..]|
    requires forall k :: 0 <= k < |tailHeads| ==> rr[k] == Summary(xs[n..][tailHeads[k]..GroupEnd(tailHeads, k, |xs[n..]|)])
    ensures |heads| == |r| && heads[0] == 0
    ensures forall k :: 0 <= k < |heads| ==> heads[k] < GroupEnd(heads, k, |xs|) <= |xs|
    ensures forall k :: 0 <= k < |heads| ==> r[k] == Summary(xs[heads[k]..GroupEnd(heads, k, |xs|)])
  {
    var rest := xs[n..];
    forall t | 0 <= t < |tailHeads|
      ensures GroupAt(rest, tailHeads, rr, t)
    {
    }
    heads := ShiftHeads(tailHeads, n, |rest|);
    GroupsStep(xs, n, |rest|, tailHeads, heads, r, rr);
    forall k | 0 <= k < |heads|
      ensures heads[k] < GroupEnd(heads, k, |xs|) <= |xs|
      ensures r[k] == Summary(xs[heads[k]..GroupEnd(heads, k, |xs|)])
    {
      assert GroupAt(xs, heads, r, k);
    }
  }

  /** The inductive step of `MergeTurnHeads`, stated over the turn sequences
      alone: `r` is the first group's summary followed by the turns `rr` of
      the rest of the input, whose groups `tailHeads` describes. */
  lemma GroupsStep(xs: seq<Assigned>, n: nat, restLen: nat, tailHeads: seq<nat>, heads: seq<nat>, r: seq<Turn>, rr: seq<Turn>)
    requires 1 <= n <= |xs| && restLen == |xs| - n
    requires r == [Summary(xs[..n])] + rr
    requires |tailHeads| == |rr|
    requires |xs| - n > 0 ==> |tailHeads| > 0 && tailHeads[0] == 0
    requires forall t :: 0 <= t < |tailHeads| ==> GroupAt(xs[n..], tailHeads, rr, t)
    requires |heads| == |tailHeads| + 1 && heads[0] == 0
    requires GroupEnd(heads, 0, restLen + n) == if |tailHeads| > 0 then tailHeads[0] + n else restLen + n
    requires forall k :: 1 <= k < |heads| ==> ShiftedAt(heads, tailHeads, n, restLen, k)
    ensures forall k :: 0 <= k < |heads| ==> GroupAt(xs, heads, r, k)
  {
    forall k | 0 <= k < |heads|
      ensures GroupAt(xs, heads, r, k)
    {
      if k == 0 {
        if |tailHeads| > 0 {
          assert GroupAt(xs[n..], tailHeads, rr, 0);
        }
        FirstGroup(xs, n, heads, r, rr);
      } else {
        assert ShiftedAt(heads, tailHeads, n, restLen, k);
        assert GroupAt(xs[n..], tailHeads, rr, k - 1);
        LaterGroupAt(xs, n, tailHeads, heads, r, rr, k);
      }
    }
  }

  /** The first group of `GroupsStep`: the first `n` segments. */
  lemma FirstGroup(xs: seq<Assigned>, n: nat, heads: seq<nat>, r: seq<Turn>, rr: seq<Turn>)
    requires 1 <= n <= |xs|
    requires r == [Summary(xs[..n])] + rr
    requires |heads| == |rr| + 1 && heads[0] == 0
    requires GroupEnd(heads, 0, |xs|) == n
    ensures GroupAt(xs, heads, r, 0)
  {
    assert xs[0..n] == xs[..n];
  }

  /** A later group of `GroupsStep`: group `k - 1` of the rest of the input,
      seen from the whole input. */
  lemma LaterGroupAt(xs: seq<Assigned>, n: nat, tailHeads: seq<nat>, heads: seq<nat>, r: seq<Turn>, rr: seq<Turn>, k: nat)
    requires 1 <= n <= |xs|
    requires r == [Summary(xs[..n])] + rr
    requires |tailHeads| == |rr| && |heads| == |tailHeads| + 1
    requires 1 <= k < |heads|
    requires GroupAt(xs[n..], tailHeads, rr, k - 1)
    requires ShiftedAt(heads, tailHeads, n, |xs| - n, k)
    ensures GroupAt(xs, heads, r, k)
  {
    var t := k - 1;
    var te := GroupEnd(tailHeads, t, |xs| - n);
    var e := GroupEnd(heads, k, |xs|);
    assert r[k] == rr[t];
    LaterGroup(xs, n, tailHeads[t], te, heads[k], e, rr[t]);
  }

  /** One later group, by its bounds: a group of the rest of the input, seen
      from the whole input. */
  lemma LaterGroup(xs: seq<Assigned>, n: nat, a: nat, b: nat, lo: nat, hi: nat, turn: Turn)
    requires n <= |xs| && a < b <= |xs| - n
    requires lo == a + n && hi == b + n
    requires turn == Summary(xs[n..][a..b])
    ensures lo < hi <= |xs|
    ensures turn == Summary(xs[lo..hi])
  {
    SliceOfSuffix(xs, n, a, b, lo, hi);
  }

  lemma SliceOfSuffix<T>(xs: seq<T>, n: nat, a: nat, b: nat, lo: nat, hi: nat)
    requires n <= |xs| && a <= b <= |xs| - n
    requires lo == a + n && hi == b + n
    ensures xs[n..][a..b] == xs[lo..hi]
  {
  }

  /** Heads of the turns after the first, moved past a first group of `n`
      segments; the first group's head is 0. */
  lemma ShiftHeads(tail: seq<nat>, n: nat, restLen: nat) returns (heads: seq<nat>)
    requires n > 0
    ensures |heads| == |tail| + 1 && heads[0] == 0
    ensures GroupEnd(heads, 0, restLen + n) == if |tail| > 0 then tail[0] + n else restLen + n
    ensures forall k :: 1 <= k < |heads| ==> ShiftedAt(heads, tail, n, restLen, k)
  {
    heads := [0] + seq(|tail|, i requires 0 <= i < |tail| => tail[i] + n);
    forall k | 1 <= k < |heads|
      ensures ShiftedAt(heads, tail, n, restLen, k)
    {
      if k + 1 < |heads| {
        assert heads[k + 1] == tail[k] + n;
      }
    }
  }

  /** Turns keep the timing order of well-formed input: when every segment
      has `start <= end` and starts never decrease, every turn has
      `start <= end` and turn starts never decrease. */
  lemma TurnsOrdered(xs: seq<Assigned>, minDuration: real)
    requires forall i :: 0 <= i < |xs| ==> xs[i].seg.start <= xs[i].seg.end
    requires forall i, j :: 0 <= i < j < |xs| ==> xs[i].seg.start <= xs[j].seg.start
    ensures var r := MergeShortSegments(xs, minDuration);
            forall k :: 0 <= k < |r| ==> r[k].start <= r[k].end
    ensures var r := MergeShortSegments(xs, minDuration);
            forall k, l :: 0 <= k < l < |r| ==> r[k].start <= r[l].start
  {
    var heads := MergeTurnHeads(xs, minDuration);
    var r := MergeShortSegments(xs, minDuration);
    forall k | 0 <= k < |r|
      ensures r[k].start == xs[heads[k]].seg.start <= r[k].end
    {
      GroupOrdered(xs, heads[k], GroupEnd(heads, k, |xs|));
    }
    HeadsIncreasing(heads, |xs|);
  }

  /** A group of a well-formed input starts at its first segment's start and
      ends no earlier. */
  lemma GroupOrdered(xs: seq<Assigned>, a: nat, b: nat)
    requires a < b <= |xs|
    requires forall i :: 0 <= i < |xs| ==> xs[i].seg.start <= xs[i].seg.end
    requires forall i, j :: 0 <= i < j < |xs| ==> xs[i].seg.start <= xs[j].seg.start
    ensures Summary(xs[a..b]).start == xs[a].seg.start <= Summary(xs[a..b]).end
  {
    var g := xs[a..b];
    assert g[0] == xs[a] && g[|g| - 1] == xs[b - 1];
    assert xs[a].seg.start <= xs[b - 1].seg.start;
  }

  /** Heads that each lie below the next one's position are strictly
      increasing as a whole. */
  lemma {:induction false} HeadsIncreasing(heads: seq<nat>, len: nat)
    requires forall k :: 0 <= k < |heads| ==> heads[k] < GroupEnd(heads, k, len)
    ensures forall k, l :: 0 <= k < l < |heads| ==> heads[k] < heads[l]
    decreases |heads|
  {
    if |heads| > 1 {
      var init := heads[..|heads| - 1];
      forall k | 0 <= k < |init|
        ensures init[k] < GroupEnd(init, k, heads[|heads| - 1])
      {
        assert GroupEnd(heads, k, len) == GroupEnd(init, k, heads[|heads| - 1]);
      }
      HeadsIncreasing(init, heads[|heads| - 1]);
      forall k, l | 0 <= k < l < |heads|
        ensures heads[k] < heads[l]
      {
        if l < |heads| - 1 {
          assert heads[k] == init[k] && heads[l] == init[l];
        } else if k < l - 1 {
          assert heads[k] < heads[l - 1];
        }
      }
    }
  }

  /** Three segments where the second joins the first and the third opens a
      new turn. */
  lemma MergeThree(a: Assigned, b: Assigned, c: Assigned, minDuration: real)
    requires Absorbs(Open(a), b, minDuration)
    requires !Absorbs(Absorb(Open(a), b), c, minDuration)
    ensures MergeShortSegments([a, b, c], minDuration) == [Close(Absorb(Open(a), b)), Close(Open(c))]
  {
    var xs := [a, b, c];
    var run := Absorb(Open(a), b);
    assert xs[1..] == [b, c] && [b, c][1..] == [c] && [c][1..] == [];
    assert MergeShortSegments(xs, minDuration) == MergeRun(Open(a), [b, c], minDuration);
    assert MergeRun(Open(a), [b, c], minDuration) == MergeRun(run, [c], minDuration);
    assert MergeRun(run, [c], minDuration) == [Close(run)] + MergeRun(Open(c), [], minDuration);
    assert MergeRun(Open(c), [], minDuration) == [Close(Open(c))];
  }

  /** Two segments where the second joins the first. */
  lemma MergeTwo(a: Assigned, b: Assigned, minDuration: real)
    requires Absorbs(Open(a), b, minDuration)
    ensures MergeShortSegments([a, b], minDuration) == [Close(Absorb(Open(a), b))]
  {
    var xs := [a, b];
    var run := Absorb(Open(a), b);
    assert xs[1..] == [b] && [b][1..] == [];
    assert MergeShortSegments(xs, minDuration) == MergeRun(Open(a), [b], minDuration);
    assert MergeRun(Open(a), [b], minDuration) == MergeRun(run, [], minDuration);
    assert MergeRun(run, [], minDuration) == [Close(run)];
  }

  /** The worked example: two short turns of speaker 0 merge, the turn of
      speaker 1 stays separate. */
  lemma MergeExample()
    ensures MergeShortSegments(
              [Assigned(Segment(0.0, 0.3, "a"), 0),
               Assigned(Segment(0.3, 0.6, "b"), 0),
               Assigned(Segment(0.6, 2.0, "c"), 1)], DefaultMinDuration)
            == [Turn(0.0, 0.6, 0, "a b"), Turn(0.6, 2.0, 1, "c")]
  {
    var a := Assigned(Segment(0.0, 0.3, "a"), 0);
    var b := Assigned(Segment(0.3, 0.6, "b"), 0);
    var c := Assigned(Segment(0.6, 2.0, "c"), 1);
    assert Absorb(Open(a), b) == Turn(0.0, 0.6, 0, "a b");
    MergeThree(a, b, c, DefaultMinDuration);
    NotSpace("a b");
    NotSpace("c");
  }

  /** The duration test gates each merge, not the merged length: a turn of
      0.9 s absorbs a following 4.1 s segment and becomes 5 s long. */
  lemma TurnCanExceedMinDuration()
    ensures MergeShortSegments(
              [Assigned(Segment(0.0, 0.9, "a"), 0),
               Assigned(Segment(0.9, 5.0, "b"), 0)], DefaultMinDuration)
            == [Turn(0.0, 5.0, 0, "a b")]
  {
    var a := Assigned(Segment(0.0, 0.9, "a"), 0);
    var b := Assigned(Segment(0.9, 5.0, "b"), 0);
    assert Absorb(Open(a), b) == Turn(0.0, 5.0, 0, "a b");
    MergeTwo(a, b, DefaultMinDuration);
    NotSpace("a b");
  }

  /** Strings whose ends are letters are left alone by strip. */
  lemma NotSpace(s: string)
    requires |s| > 0 && 'a' <= s[0] <= 'z' && 'a' <= s[|s| - 1] <= 'z'
    ensures Strip(s) == s
  {
    assert !IsSpace(s[0]) && !IsSpace(s[|s| - 1]);
    StripTrimmed(s);
  }
}

=== FILE: pipeline.dfy ===
/** `process_file` after transcription: cluster the recognised segments,
    consolidate each speaker's turns and render the transcript and the
    subtitles. Loading the audio, the speech recogniser and the file writes
    are left out; the outcome records what would be written.

    `cluster_speakers` returns a bare `[]` when no segment survives the
    filter, and `process_file` unpacks its result into two names, so such a
    file ends in an exception before the "no valid segments" branch is
    reached. `ProcessFile` models that as written; `ProcessFileFixed` models
    the evidently intended skip.
 */
module Pipeline {
  import opened Builtins
  import opened Segments
  import opened Clustering
  import opened Merging
  import opened Render

  /** The exception a file ends in. */
  datatype Failure =
    | UnpackError  // unpacking the bare `[]` into two names
    | ZipError     // `zip(valid_segments, None)`

  /** What processing one file amounts to. */
  datatype FileOutcome =
    | Crashed(failure: Failure)
    | Skipped
    | Written(speakers: int, transcript: string, subtitles: string)

  /** The tail of `process_file` once an assignment is in hand: skip an empty
      one, otherwise merge short turns and render both files. */
  function Consolidate(assignment: seq<Assigned>, speakers: int): (r: FileOutcome)
    ensures r.Skipped? <==> assignment == []
    ensures assignment != [] ==> r.Written?
    ensures r.Written? ==>
              var turns := MergeShortSegments(assignment, DefaultMinDuration);
              && r.speakers == speakers
              && r.transcript == Transcript(turns) && r.subtitles == Subtitles(turns)
              && 1 <= |turns| <= |assignment|
  {
    if assignment == [] then Skipped
    else
      var turns := MergeShortSegments(assignment, DefaultMinDuration);
      Written(speakers, Transcript(turns), Subtitles(turns))
  }

  /** `process_file` as written, over a waveform of `wavLen` samples and the
      recognised segments `segs`; `cluster_speakers` runs with its default
      of at most six speakers. */
  function ProcessFile<E>(
    wavLen: nat, segs: seq<Segment>,
    embed: ((nat, nat)) -> E,
    cluster: (seq<E>, int) -> seq<int>,
    silhouette: (seq<E>, seq<int>) -> Silhouette)
    : (r: FileOutcome)
    ensures r.Crashed? <==> forall i :: 0 <= i < |segs| ==> !LongEnough(segs[i], wavLen)
    ensures r.Crashed? ==> r.failure == UnpackError
    ensures r.Written? ==> 1 <= r.speakers <= DefaultMaxSpeakers
  {
    match ClusterSpeakers(wavLen, segs, DefaultMaxSpeakers, embed, cluster, silhouette)
    case NoSegments => Crashed(UnpackError)
    case LabelsMissing => Crashed(ZipError)
    case Clustered(assignment, speakers) => Consolidate(assignment, speakers)
  }

  /** `process_file` with `cluster_speakers` returning an empty assignment
      and no speakers when no segment survives: such a file is skipped, and
      no file ends in an exception. */
  function ProcessFileFixed<E>(
    wavLen: nat, segs: seq<Segment>,
    embed: ((nat, nat)) -> E,
    cluster: (seq<E>, int) -> seq<int>,
    silhouette: (seq<E>, seq<int>) -> Silhouette)
    : (r: FileOutcome)
    ensures !r.Crashed?
    ensures (forall i :: 0 <= i < |segs| ==> !LongEnough(segs[i], wavLen)) ==> r.Skipped?
    ensures r.Written? ==> 1 <= r.speakers <= DefaultMaxSpeakers
  {
    match ClusterSpeakers(wavLen, segs, DefaultMaxSpeakers, embed, cluster, silhouette)
    case NoSegments => Consolidate([], 0)
    case LabelsMissing => Crashed(ZipError)
    case Clustered(assignment, speakers) => Consolidate(assignment, speakers)
  }

  /** A recording whose only segment is a fifth of a second long crashes
      `process_file` whatever the encoder and the clustering do. */
  lemma ProcessFileCrashesWithoutSpeech<E>(
    embed: ((nat, nat)) -> E,
    cluster: (seq<E>, int) -> seq<int>,
    silhouette: (seq<E>, seq<int>) -> Silhouette)
    ensures ProcessFile(16000, [Segment(0.0, 0.2, "hej")], embed, cluster, silhouette) == Crashed(UnpackError)
    ensures ProcessFileFixed(16000, [Segment(0.0, 0.2, "hej")], embed, cluster, silhouette) == Skipped
  {
    FloorUnique(0.2 * 16000.0, 3200);
    assert !LongEnough(Segment(0.0, 0.2, "hej"), 16000);
  }

  /** Apart from that crash the two agree: on any input with a long enough
      segment they give the same outcome. */
  lemma FixedAgreesWithSpeech<E>(
    wavLen: nat, segs: seq<Segment>,
    embed: ((nat, nat)) -> E,
    cluster: (seq<E>, int) -> seq<int>,
    silhouette: (seq<E>, seq<int>) -> Silhouette)
    requires exists i :: 0 <= i < |segs| && LongEnough(segs[i], wavLen)
    ensures ProcessFileFixed(wavLen, segs, embed, cluster, silhouette)
            == ProcessFile(wavLen, segs, embed, cluster, silhouette)
  {
  }

  /** When the clustering returns one label per embedding, as `fit_predict`
      does, the corrected pipeline writes files exactly when some segment is
      long enough, and the transcript then has a line for every turn. */
  lemma FixedWritesIffSpeech<E>(
    wavLen: nat, segs: seq<Segment>,
    embed: ((nat, nat)) -> E,
    cluster: (seq<E>, int) -> seq<int>,
    silhouette: (seq<E>, seq<int>) -> Silhouette)
    requires forall embs: seq<E>, k: int :: |cluster(embs, k)| == |embs|
    ensures var r := ProcessFileFixed(wavLen, segs, embed, cluster, silhouette);
            (r.Written? <==> exists i :: 0 <= i < |segs| && LongEnough(segs[i], wavLen))
            && (r.Skipped? <==> forall i :: 0 <= i < |segs| ==> !LongEnough(segs[i], wavLen))
  {
    var c := ClusterSpeakers(wavLen, segs, DefaultMaxSpeakers, embed, cluster, silhouette);
    if c.Clustered? {
      AssignmentCoversKept(wavLen, segs, DefaultMaxSpeakers, embed, cluster, silhouette);
      KeptNonEmptyWhenClustered(wavLen, segs, embed, cluster, silhouette);
    }
  }

  /** A clustered outcome comes from at least one kept segment. */
  lemma KeptNonEmptyWhenClustered<E>(
    wavLen: nat, segs: seq<Segment>,
    embed: ((nat, nat)) -> E,
    cluster: (seq<E>, int) -> seq<int>,
    silhouette: (seq<E>, seq<int>) -> Silhouette)
    requires ClusterSpeakers(wavLen, segs, DefaultMaxSpeakers, embed, cluster, silhouette).Clustered?
    ensures KeptSegments(segs, wavLen) != []
  {
  }
}

=== FILE: render.dfy ===
/** The per-turn output formats of `write_txt` and `write_srt`: one
    `[start - end] Speaker n: text` line per turn in the transcript, and one
    numbered four-line block per turn in the subtitles. Speaker labels are
    shown 1-based. Opening and writing the files is left out; the functions
    give the text written.
 */
module Render {
  import opened Builtins
  import opened Timestamps
  import opened Merging

  /** The line `write_txt` writes for one turn. */
  function TxtLine(t: Turn): (r: string)
    ensures |r| > 0 && r[0] == '[' && r[|r| - 1] == '\n'
  {
    "[" + FormatTimestamp(t.start, false) + " - " + FormatTimestamp(t.end, false) + "] Speaker "
    + IntStr(t.speaker + 1) + ": " + t.text + "\n"
  }

  /** Everything `write_txt` writes. */
  function Transcript(turns: seq<Turn>): (r: string)
    ensures r == [] <==> turns == []
  {
    if turns == [] then "" else TxtLine(turns[0]) + Transcript(turns[1..])
  }

  /** The block `write_srt` writes for turn number `i` (counting from 1). */
  function SrtBlock(i: int, t: Turn): string {
    IntStr(i) + "\n"
    + FormatTimestamp(t.start, true) + " --> " + FormatTimestamp(t.end, true) + "\n"
    + "Speaker " + IntStr(t.speaker + 1) + ": " + t.text + "\n\n"
  }

  /** The blocks `block(i, t)` of `turns`, numbered from `i`. */
  function Numbered(turns: seq<Turn>, i: int, block: (int, Turn) -> string): string {
    if turns == [] then "" else block(i, turns[0]) + Numbered(turns[1..], i + 1, block)
  }

  /** The subtitle blocks for `turns`, numbered from `i`. */
  function SubtitlesFrom(turns: seq<Turn>, i: int): string {
    Numbered(turns, i, SrtBlock)
  }

  /** Everything `write_srt` writes: `enumerate(merged_segments, start=1)`. */
  function Subtitles(turns: seq<Turn>): (r: string)
    ensures r == [] <==> turns == []
  {
    SubtitlesFrom(turns, 1)
  }

  /** Line breaks inside the turns' own texts. */
  function TextNewlines(turns: seq<Turn>): nat {
    if turns == [] then 0 else Count(turns[0].text, '\n') + TextNewlines(turns[1..])
  }

  /* ----------------------------------------------------------------------
     Properties
     ---------------------------------------------------------------------- */

  /** Line breaks of a transcript line, stated over its parts. */
  lemma TxtLineShape(a: string, b: string, n: string, text: string)
    requires SingleLine(a) && SingleLine(b) && SingleLine(n)
    ensures Count("[" + a + " - " + b + "] Speaker " + n + ": " + text + "\n", '\n') == Count(text, '\n') + 1
  {
    var head := "[" + a + " - " + b + "] Speaker " + n + ": ";
    assert SingleLine("[") && SingleLine(" - ") && SingleLine("] Speaker ") && SingleLine(": ");
    SingleLineAppend("[", a);
    SingleLineAppend("[" + a, " - ");
    SingleLineAppend("[" + a + " - ", b);
    SingleLineAppend("[" + a + " - " + b, "] Speaker ");
    SingleLineAppend("[" + a + " - " + b + "] Speaker ", n);
    SingleLineAppend("[" + a + " - " + b + "] Speaker " + n, ": ");
    CountAbsent(head, '\n');
    CountAppend(head, text, '\n');
    CountAppend(head + text, "\n", '\n');
    assert Count("\n", '\n') == 1;
  }

  /** Line breaks of a subtitle block, stated over its parts. */
  lemma SrtBlockShape(num: string, a: string, b: string, n: string, text: string)
    requires SingleLine(num) && SingleLine(a) && SingleLine(b) && SingleLine(n)
    ensures Count(num + "\n" + a + " --> " + b + "\n" + "Speaker " + n + ": " + text + "\n\n", '\n')
            == Count(text, '\n') + 4
  {
    var l2 := a + " --> " + b;
    var l3 := "Speaker " + n + ": ";
    assert SingleLine(" --> ") && SingleLine("Speaker ") && SingleLine(": ");
    SingleLineAppend(a, " --> ");
    SingleLineAppend(a + " --> ", b);
    SingleLineAppend("Speaker ", n);
    SingleLineAppend("Speaker " + n, ": ");
    CountAbsent(num, '\n');
    CountAbsent(l2, '\n');
    CountAbsent(l3, '\n');
    assert num + "\n" + a + " --> " + b + "\n" + "Speaker " + n + ": " + text + "\n\n"
        == num + "\n" + l2 + "\n" + l3 + text + "\n\n";
    assert Count("\n", '\n') == 1;
    assert Count("\n\n", '\n') == 2;
    CountAppend(num, "\n", '\n');
    CountAppend(num + "\n", l2, '\n');
    CountAppend(num + "\n" + l2, "\n", '\n');
    CountAppend(num + "\n" + l2 + "\n", l3, '\n');
    CountAppend(num + "\n" + l2 + "\n" + l3, text, '\n');
    CountAppend(num + "\n" + l2 + "\n" + l3 + text, "\n\n", '\n');
  }

  /** A transcript line ends the line once, after the text: it holds exactly
      one line break more than the text. */
  lemma TxtLineBreaks(t: Turn)
    ensures Count(TxtLine(t), '\n') == Count(t.text, '\n') + 1
  {
    TimestampSingleLine(t.start, false);
    TimestampSingleLine(t.end, false);
    NumeralNoChar(IntStr(t.speaker + 1), '\n');
    TxtLineShape(FormatTimestamp(t.start, false), FormatTimestamp(t.end, false), IntStr(t.speaker + 1), t.text);
  }

  /** A subtitle block holds exactly four line breaks more than its text:
      after the number, after the time range, after the speaker line, and
      the blank line that separates blocks. */
  lemma SrtBlockBreaks(i: int, t: Turn)
    ensures Count(SrtBlock(i, t), '\n') == Count(t.text, '\n') + 4
  {
    TimestampSingleLine(t.start, true);
    TimestampSingleLine(t.end, true);
    NumeralNoChar(IntStr(i), '\n');
    NumeralNoChar(IntStr(t.speaker + 1), '\n');
    SrtBlockShape(IntStr(i), FormatTimestamp(t.start, true), FormatTimestamp(t.end, true),
                  IntStr(t.speaker + 1), t.text);
  }

  /** A subtitle block ends with the blank line that separates it from the
      next. */
  lemma SrtBlockEndsBlank(i: int, t: Turn)
    ensures |SrtBlock(i, t)| >= 2 && SrtBlock(i, t)[|SrtBlock(i, t)| - 2..] == "\n\n"
  {
  }

  /** The transcript has one line per turn: its line breaks are one per turn
      plus those inside the texts. */
  lemma {:induction false} TranscriptLines(turns: seq<Turn>)
    ensures Count(Transcript(turns), '\n') == |turns| + TextNewlines(turns)
  {
    if turns != [] {
      TxtLineBreaks(turns[0]);
      TranscriptLines(turns[1..]);
      CountAppend(TxtLine(turns[0]), Transcript(turns[1..]), '\n');
    }
  }

  /** The subtitle file has one four-line block per turn. */
  lemma {:induction false} SubtitleLines(turns: seq<Turn>, i: int)
    ensures Count(SubtitlesFrom(turns, i), '\n') == 4 * |turns| + TextNewlines(turns)
  {
    if turns != [] {
      SrtBlockBreaks(i, turns[0]);
      SubtitleLines(turns[1..], i + 1);
      CountAppend(SrtBlock(i, turns[0]), SubtitlesFrom(turns[1..], i + 1), '\n');
    }
  }

  /** Numbering continues across a split of the turns: the blocks of `b`
      after those of `a` are numbered from `i + |a|`. */
  lemma {:induction false} NumberedAppend(a: seq<Turn>, b: seq<Turn>, i: int, block: (int, Turn) -> string)
    ensures Numbered(a + b, i, block) == Numbered(a, i, block) + Numbered(b, i + |a|, block)
    decreases |a|
  {
    if a == [] {
      assert a + b == b;
    } else {
      assert (a + b)[0] == a[0];
      assert (a + b)[1..] == a[1..] + b;
      NumberedAppend(a[1..], b, i + 1, block);
    }
  }

  /** The subtitles of `a + b` are those of `a` followed by those of `b`,
      whose blocks are numbered on from where `a` stopped. */
  lemma SubtitlesAppend(a: seq<Turn>, b: seq<Turn>, i: int)
    ensures SubtitlesFrom(a + b, i) == SubtitlesFrom(a, i) + SubtitlesFrom(b, i + |a|)
  {
    NumberedAppend(a, b, i, SrtBlock);
  }

  /** The transcript of `a + b` is the transcript of `a` followed by that of `b`. */
  lemma {:induction false} TranscriptAppend(a: seq<Turn>, b: seq<Turn>)
    ensures Transcript(a + b) == Transcript(a) + Transcript(b)
  {
    if a == [] {
      assert a + b == b;
    } else {
      assert (a + b)[0] == a[0];
      assert (a + b)[1..] == a[1..] + b;
      TranscriptAppend(a[1..], b);
    }
  }

  /** The transcript of a single turn is that turn's line. With
      `TranscriptAppend` this fixes the whole transcript. */
  lemma TranscriptOne(t: Turn)
    ensures Transcript([t]) == TxtLine(t)
  {
    assert [t][1..] == [];
  }

  /** Line `k` of the transcript, counting from 0, is the line of turn `k`:
      the transcript is the lines before it, that line, and the lines after. */
  lemma TranscriptAt(turns: seq<Turn>, k: nat)
    requires k < |turns|
    ensures Transcript(turns) == Transcript(turns[..k]) + TxtLine(turns[k]) + Transcript(turns[k + 1..])
  {
    TranscriptSplitAt(turns, k);
    TranscriptFrom(turns, k);
    Regroup(Transcript(turns), Transcript(turns[..k]), Transcript(turns[k..]), TxtLine(turns[k]), Transcript(turns[k + 1..]));
  }

  /** Splicing `line + post` in for `rest`. */
  lemma Regroup(whole: string, pre: string, rest: string, line: string, post: string)
    requires whole == pre + rest && rest == line + post
    ensures whole == pre + line + post
  {
  }

  /** The transcript from turn `k` on starts with turn `k`'s line. */
  lemma TranscriptFrom(turns: seq<Turn>, k: nat)
    requires k < |turns|
    ensures Transcript(turns[k..]) == TxtLine(turns[k]) + Transcript(turns[k + 1..])
  {
    assert turns[k..][0] == turns[k];
    assert turns[k..][1..] == turns[k + 1..];
  }

  /** The transcript of the turns is that of the first `k` followed by that
      of the rest. */
  lemma TranscriptSplitAt(turns: seq<Turn>, k: nat)
    requires k <= |turns|
    ensures Transcript(turns) == Transcript(turns[..k]) + Transcript(turns[k..])
  {
    assert turns == turns[..k] + turns[k..];
    TranscriptAppend(turns[..k], turns[k..]);
  }

  /** Block `k` of `Numbered(turns, i, block)`, counting from 0, is the
      block of turn `k` under number `i + k`. */
  lemma {:induction false} NumberedAt(turns: seq<Turn>, k: nat, i: int, block: (int, Turn) -> string)
    requires k < |turns|
    ensures Numbered(turns, i, block)
            == Numbered(turns[..k], i, block) + block(i + k, turns[k]) + Numbered(turns[k + 1..], i + k + 1, block)
  {
    var rest := turns[k..];
    assert turns == turns[..k] + rest;
    NumberedAppend(turns[..k], rest, i, block);
    assert rest[0] == turns[k];
    assert rest[1..] == turns[k + 1..];
  }

  /** Turn `k` (counting from 0) is written as subtitle block `k + 1`:
      `enumerate(merged_segments, start=1)` numbers from 1, and the blocks
      before and after it keep their own numbers. */
  lemma SubtitlesAt(turns: seq<Turn>, k: nat)
    requires k < |turns|
    ensures Subtitles(turns)
            == SubtitlesFrom(turns[..k], 1) + SrtBlock(k + 1, turns[k]) + SubtitlesFrom(turns[k + 1..], k + 2)
  {
    NumberedAt(turns, k, 1, SrtBlock);
  }

  /** A transcript line in terms of its rendered fields. */
  lemma TxtLineOf(t: Turn, a: string, b: string, n: string)
    requires FormatTimestamp(t.start, false) == a && FormatTimestamp(t.end, false) == b
    requires IntStr(t.speaker + 1) == n
    ensures TxtLine(t) == "[" + a + " - " + b + "] Speaker " + n + ": " + t.text + "\n"
  {
  }

  /** A subtitle block in terms of its rendered fields. */
  lemma SrtBlockOf(i: int, t: Turn, num: string, a: string, b: string, n: string)
    requires IntStr(i) == num
    requires FormatTimestamp(t.start, true) == a && FormatTimestamp(t.end, true) == b
    requires IntStr(t.speaker + 1) == n
    ensures SrtBlock(i, t) == num + "\n" + a + " --> " + b + "\n" + "Speaker " + n + ": " + t.text + "\n\n"
  {
  }

  /** A transcript line reads back as its turn: the speaker number is the
      label plus one, and for times within one day the two timestamps denote
      the whole seconds of the start and the end. */
  lemma TxtLineFields(t: Turn) returns (a: string, b: string, n: string)
    ensures TxtLine(t) == "[" + a + " - " + b + "] Speaker " + n + ": " + t.text + "\n"
    ensures ParseInt(n) == Some(t.speaker + 1)
    ensures 0.0 <= t.start < SecondsPerDay as real ==> ParseClock(a) == Some(t.start.Floor)
    ensures 0.0 <= t.end < SecondsPerDay as real ==> ParseClock(b) == Some(t.end.Floor)
  {
    a, b, n := FormatTimestamp(t.start, false), FormatTimestamp(t.end, false), IntStr(t.speaker + 1);
    TxtLineOf(t, a, b, n);
    IntStrRoundTrip(t.speaker + 1);
    if 0.0 <= t.start < SecondsPerDay as real {
      PlainTimestampDenotesSeconds(t.start);
    }
    if 0.0 <= t.end < SecondsPerDay as real {
      PlainTimestampDenotesSeconds(t.end);
    }
  }

  /** A subtitle block reads back as its number and its turn: the speaker
      number is the label plus one, and for times within one day the two
      timestamps denote the start and the end in whole milliseconds. */
  lemma SrtBlockFields(i: int, t: Turn) returns (num: string, a: string, b: string, n: string)
    ensures SrtBlock(i, t) == num + "\n" + a + " --> " + b + "\n" + "Speaker " + n + ": " + t.text + "\n\n"
    ensures ParseInt(num) == Some(i)
    ensures ParseInt(n) == Some(t.speaker + 1)
    ensures DenotesMilliseconds(a, t.start) && DenotesMilliseconds(b, t.end)
  {
    num, a, b, n := IntStr(i), FormatTimestamp(t.start, true), FormatTimestamp(t.end, true), IntStr(t.speaker + 1);
    SrtBlockOf(i, t, num, a, b, n);
    IntStrRoundTrip(i);
    IntStrRoundTrip(t.speaker + 1);
    SrtTimeReadsBack(t.start);
    SrtTimeReadsBack(t.end);
  }

  /** The literal pieces of the example line, joined once so that the
      example lemmas below only need to render the fields. */
  lemma TxtLiteral()
    ensures "[" + "1:01:01" + " - " + "1:01:02" + "] Speaker " + "1" + ": " + "hello" + "\n"
            == "[1:01:01 - 1:01:02] Speaker 1: hello\n"
  {
  }

  /** The literal pieces of the example block, joined in two halves. */
  lemma SrtLiteralHead()
    ensures "1" + "\n" + "1:01:01,000" + " --> " + "1:01:02,500" + "\n" == "1\n1:01:01,000 --> 1:01:02,500\n"
  {
    assert "1" + "\n" + "1:01:01,000" == "1\n1:01:01,000";
    assert " --> " + "1:01:02,500" + "\n" == " --> 1:01:02,500\n";
  }

  lemma SrtLiteralTail()
    ensures "Speaker " + "1" + ": " + "hello" + "\n\n" == "Speaker 1: hello\n\n"
  {
  }

  lemma SrtLiteral()
    ensures "1" + "\n" + "1:01:01,000" + " --> " + "1:01:02,500" + "\n" + "Speaker " + "1" + ": " + "hello" + "\n\n"
            == "1\n1:01:01,000 --> 1:01:02,500\nSpeaker 1: hello\n\n"
  {
    SrtLiteralHead();
    SrtLiteralTail();
    var h := "1\n1:01:01,000 --> 1:01:02,500\n";
    var t := "Speaker 1: hello\n\n";
    assert h + t == "1\n1:01:01,000 --> 1:01:02,500\nSpeaker 1: hello\n\n";
  }

  /** The turn `(3661.0, 3662.5, 0, "hello")` as a transcript line: the
      speaker is shown 1-based. */
  lemma TxtLineExample()
    ensures TxtLine(Turn(3661.0, 3662.5, 0, "hello")) == "[1:01:01 - 1:01:02] Speaker 1: hello\n"
  {
    FormatExampleHour();
    FormatExampleHalfSecond();
    SmallNumerals();
    TxtLineOf(Turn(3661.0, 3662.5, 0, "hello"), "1:01:01", "1:01:02", "1");
    TxtLiteral();
  }

  /** The same turn as the first subtitle block. */
  lemma SrtBlockExample()
    ensures SrtBlock(1, Turn(3661.0, 3662.5, 0, "hello"))
            == "1\n1:01:01,000 --> 1:01:02,500\nSpeaker 1: hello\n\n"
  {
    FormatExampleHour();
    FormatExampleHalfSecond();
    SmallNumerals();
    SrtBlockOf(1, Turn(3661.0, 3662.5, 0, "hello"), "1", "1:01:01,000", "1:01:02,500", "1");
    SrtLiteral();
  }
}

=== FILE: segments.dfy ===
/** The segment filter at the top of `cluster_speakers`: every recognised
    segment is cut out of the waveform by sample index, and only the segments
    whose slice holds at least half a second of audio are embedded. The
    waveform is represented by its length alone, and the voice encoder by an
    opaque function of the slice it is given.
 */
module Segments {
  import opened Builtins

  /** Samples per second of the decoded waveform. */
  const SamplingRate: nat := 16000

  /** `SAMPLING_RATE // 2`: the shortest slice, in samples, that is embedded. */
  const MinSamples: nat := SamplingRate / 2

  /** A segment as the speech recogniser produces it: times in seconds. */
  datatype Segment = Segment(start: real, end: real, text: string)

  /** `int(t * SAMPLING_RATE)`: a time in seconds as a sample index, truncated. */
  function SampleIndex(t: real): int {
    Trunc(t * SamplingRate as real)
  }

  /** The clamped bounds `[lo, hi)` that `wav[int(start*R):int(end*R)]`
      reads from a waveform of `wavLen` samples. */
  function SliceBounds(s: Segment, wavLen: nat): (b: (nat, nat))
    ensures b.0 <= wavLen && b.1 <= wavLen
  {
    (SliceIndex(SampleIndex(s.start), wavLen), SliceIndex(SampleIndex(s.end), wavLen))
  }

  /** `len(wav[int(start*R):int(end*R)])`. */
  function SliceLength(s: Segment, wavLen: nat): (n: nat)
    ensures n <= wavLen
    ensures 0 <= SampleIndex(s.start) <= SampleIndex(s.end) <= wavLen
            ==> n == SampleIndex(s.end) - SampleIndex(s.start)
    ensures 0 <= SampleIndex(s.start) <= wavLen <= SampleIndex(s.end)
            ==> n == wavLen - SampleIndex(s.start)
    ensures 0 <= SampleIndex(s.end) <= SampleIndex(s.start) ==> n == 0
    ensures var b := SliceBounds(s, wavLen); n == if b.0 <= b.1 then b.1 - b.0 else 0
  {
    SliceLen(SampleIndex(s.start), SampleIndex(s.end), wavLen)
  }

  /** The filter test: a segment survives when its slice is at least
      `MinSamples` long. */
  predicate LongEnough(s: Segment, wavLen: nat) {
    SliceLength(s, wavLen) >= MinSamples
  }

  /** The elements of `xs` that `keep` accepts, in order. */
  function Filter<T>(xs: seq<T>, keep: T -> bool): (r: seq<T>)
    ensures |r| <= |xs|
    ensures forall i :: 0 <= i < |r| ==> keep(r[i])
  {
    if xs == [] then []
    else
      var last := xs[|xs| - 1];
      Filter(xs[..|xs| - 1], keep) + (if keep(last) then [last] else [])
  }

  /** The surviving segments, in input order (the reference filter). */
  function KeptSegments(segs: seq<Segment>, wavLen: nat): (r: seq<Segment>)
    ensures |r| <= |segs|
    ensures forall i :: 0 <= i < |r| ==> LongEnough(r[i], wavLen)
  {
    Filter(segs, s => LongEnough(s, wavLen))
  }

  /** The loop of `cluster_speakers` that builds `valid_segments` and
      `segment_embeddings` side by side: it keeps exactly the filtered
      segments and gives each one the embedding of its own slice. */
  function EmbedSegments<E>(segs: seq<Segment>, wavLen: nat, embed: ((nat, nat)) -> E)
    : (r: (seq<Segment>, seq<E>))
    ensures r.0 == KeptSegments(segs, wavLen)
    ensures |r.1| == |r.0|
    ensures forall i :: 0 <= i < |r.1| ==> r.1[i] == embed(SliceBounds(r.0[i], wavLen))
  {
    if segs == [] then ([], [])
    else
      var prev := EmbedSegments(segs[..|segs| - 1], wavLen, embed);
      var last := segs[|segs| - 1];
      if LongEnough(last, wavLen) then
        (prev.0 + [last], prev.1 + [embed(SliceBounds(last, wavLen))])
      else
        prev
  }

  /** A filter keeps exactly the accepted elements, in their input order:
      `idx` lists their input positions, strictly increasing, and a position
      appears in `idx` if and only if `keep` accepts its element. */
  lemma {:induction false} FilterIndices<T>(xs: seq<T>, keep: T -> bool) returns (idx: seq<nat>)
    ensures |idx| == |Filter(xs, keep)|
    ensures forall k :: 0 <= k < |idx| ==> idx[k] < |xs| && Filter(xs, keep)[k] == xs[idx[k]]
    ensures forall k :: 0 < k < |idx| ==> idx[k - 1] < idx[k]
    ensures forall j :: 0 <= j < |xs| ==> (keep(xs[j]) <==> j in idx)
  {
    if xs == [] {
      idx := [];
    } else {
      var n := |xs| - 1;
      var prev := FilterIndices(xs[..n], keep);
      idx := FilterIndicesStep(xs, keep, prev);
    }
  }

  /** The inductive step of `FilterIndices`: extending the positions kept
      from all but the last element. */
  lemma FilterIndicesStep<T>(xs: seq<T>, keep: T -> bool, prev: seq<nat>) returns (idx: seq<nat>)
    requires |xs| > 0
    requires |prev| == |Filter(xs[..|xs| - 1], keep)|
    requires forall k :: 0 <= k < |prev| ==> prev[k] < |xs| - 1 && Filter(xs[..|xs| - 1], keep)[k] == xs[..|xs| - 1][prev[k]]
    requires forall k :: 0 < k < |prev| ==> prev[k - 1] < prev[k]
    requires forall j :: 0 <= j < |xs| - 1 ==> (keep(xs[..|xs| - 1][j]) <==> j in prev)
    ensures |idx| == |Filter(xs, keep)|
    ensures forall k :: 0 <= k < |idx| ==> idx[k] < |xs| && Filter(xs, keep)[k] == xs[idx[k]]
    ensures forall k :: 0 < k < |idx| ==> idx[k - 1] < idx[k]
    ensures forall j :: 0 <= j < |xs| ==> (keep(xs[j]) <==> j in idx)
  {
    var n := |xs| - 1;
    var init := xs[..n];
    var extra := if keep(xs[n]) then [xs[n]] else [];
    var ext := if keep(xs[n]) then [n] else [];
    assert Filter(xs, keep) == Filter(init, keep) + extra;
    idx := prev + ext;
    StepPositions(xs, init, Filter(init, keep), extra, prev, ext);
    StepIncreasing(n, prev, ext);
    StepMembers(xs, keep, init, prev, ext);
  }

  /** `StepPositions`: each kept element sits at its recorded position. */
  lemma StepPositions<T>(xs: seq<T>, init: seq<T>, keptInit: seq<T>, extra: seq<T>, prev: seq<nat>, ext: seq<nat>)
    requires |xs| > 0 && init == xs[..|xs| - 1]
    requires |prev| == |keptInit|
    requires forall k :: 0 <= k < |prev| ==> prev[k] < |init| && keptInit[k] == init[prev[k]]
    requires (extra == [] && ext == []) || (extra == [xs[|xs| - 1]] && ext == [|xs| - 1])
    ensures |prev + ext| == |keptInit + extra|
    ensures forall k :: 0 <= k < |prev + ext| ==> (prev + ext)[k] < |xs| && (keptInit + extra)[k] == xs[(prev + ext)[k]]
  {
    var idx := prev + ext;
    var kept := keptInit + extra;
    forall k | 0 <= k < |idx|
      ensures idx[k] < |xs| && kept[k] == xs[idx[k]]
    {
      if k < |prev| {
        assert idx[k] == prev[k] && kept[k] == keptInit[k];
        assert init[prev[k]] == xs[prev[k]];
      } else {
        assert idx[k] == |xs| - 1 && kept[k] == xs[|xs| - 1];
      }
    }
  }

  /** `StepIncreasing`: positions stay strictly increasing when `n`, beyond
      every earlier position, is appended. */
  lemma StepIncreasing(n: nat, prev: seq<nat>, ext: seq<nat>)
    requires forall k :: 0 <= k < |prev| ==> prev[k] < n
    requires forall k :: 0 < k < |prev| ==> prev[k - 1] < prev[k]
    requires ext == [] || ext == [n]
    ensures forall k :: 0 < k < |prev + ext| ==> (prev + ext)[k - 1] < (prev + ext)[k]
  {
    var idx := prev + ext;
    forall k | 0 < k < |idx|
      ensures idx[k - 1] < idx[k]
    {
      if k == |prev| {
        assert idx[k - 1] == prev[k - 1] && idx[k] == n;
      } else {
        assert idx[k - 1] == prev[k - 1] && idx[k] == prev[k];
      }
    }
  }

  /** `StepMembers`: a position is recorded exactly when its element is kept. */
  lemma StepMembers<T>(xs: seq<T>, keep: T -> bool, init: seq<T>, prev: seq<nat>, ext: seq<nat>)
    requires |xs| > 0 && init == xs[..|xs| - 1]
    requires forall k :: 0 <= k < |prev| ==> prev[k] < |init|
    requires forall j :: 0 <= j < |init| ==> (keep(init[j]) <==> j in prev)
    requires ext == (if keep(xs[|xs| - 1]) then [|xs| - 1] else [])
    ensures forall j :: 0 <= j < |xs| ==> (keep(xs[j]) <==> j in prev + ext)
  {
    var n := |xs| - 1;
    forall j | 0 <= j < |xs|
      ensures keep(xs[j]) <==> j in prev + ext
    {
      assert j in prev + ext <==> j in prev || j in ext;
      if j < n {
        assert xs[j] == init[j];
        assert j !in ext;
      } else {
        assert n !in prev;
      }
    }
  }

  /** The kept segments are exactly the long-enough inputs, in their input
      order: `idx` lists their input positions, strictly increasing, and a
      position appears in `idx` if and only if its segment is long enough. */
  lemma KeptIndices(segs: seq<Segment>, wavLen: nat) returns (idx: seq<nat>)
    ensures |idx| == |KeptSegments(segs, wavLen)|
    ensures forall k :: 0 <= k < |idx| ==> idx[k] < |segs| && KeptSegments(segs, wavLen)[k] == segs[idx[k]]
    ensures forall k :: 0 < k < |idx| ==> idx[k - 1] < idx[k]
    ensures forall j :: 0 <= j < |segs| ==> (LongEnough(segs[j], wavLen) <==> j in idx)
  {
    idx := FilterIndices(segs, s => LongEnough(s, wavLen));
  }

  /** Half a second of audio is exactly enough: a slice of 0.5 s is kept and
      one of 0.4999 s is dropped. */
  lemma HalfSecondThreshold()
    ensures LongEnough(Segment(0.0, 0.5, "ja"), 16000)
    ensures !LongEnough(Segment(0.0, 0.4999, "ja"), 16000)
  {
    FloorUnique(0.5 * 16000.0, 8000);
    FloorUnique(0.4999 * 16000.0, 7998);
  }

  /** A slice that runs past the end of the audio is clamped rather than
      rejected: 0.5 s to 3.0 s over one second of audio measures 8000 samples. */
  lemma SliceClampedAtEnd()
    ensures SliceLength(Segment(0.5, 3.0, "hej"), 16000) == 8000
    ensures LongEnough(Segment(0.5, 3.0, "hej"), 16000)
  {
    FloorUnique(0.5 * 16000.0, 8000);
    FloorUnique(3.0 * 16000.0, 48000);
  }
}

=== FILE: timestamps.dfy ===
/** `format_timestamp`: a time in seconds rendered as `str(timedelta(seconds=int(s)))`,
    that is `H:MM:SS` with the hours unpadded, and for subtitles followed by
    `,mmm`, the truncated milliseconds. The `"00:"` prefix branch never
    applies, because every `timedelta` string has exactly two colons.
 */
module Timestamps {
  import opened Builtins

  const SecondsPerDay: int := 86400

  /** `f"{hh}:{mm:02d}:{ss:02d}"` for a second count within one day. */
  function Clock(secs: int): string {
    var m := secs / 60;
    IntStr(m / 60) + ":" + FormatD(m % 60, 2) + ":" + FormatD(secs % 60, 2)
  }

  /** `str(timedelta(seconds=n))`: the second count is split into whole days
      (rounded down) and a remainder in `[0, 86400)`; a non-zero day count is
      written in front as `"D day, "` or `"D days, "`. */
  function TimedeltaStr(n: int): (r: string)
    ensures Count(r, ':') == 2
  {
    var days := n / SecondsPerDay;
    var clock := Clock(n % SecondsPerDay);
    ClockColons(n % SecondsPerDay);
    if days == 0 then clock
    else
      var prefix := IntStr(days) + " day" + (if days == 1 || days == -1 then "" else "s") + ", ";
      NoColonInDayPrefix(days, prefix);
      CountAppend(prefix, clock, ':');
      prefix + clock
  }

  /** `format_timestamp(seconds, for_srt)`. */
  function FormatTimestamp(seconds: real, forSrt: bool): string {
    if forSrt then
      var ms := Trunc((seconds - Trunc(seconds) as real) * 1000.0);
      var t := TimedeltaStr(Trunc(seconds));
      var t' := if |SplitOn(t, ':')| == 2 then "00:" + t else t;
      t' + "," + FormatD(ms, 3)
    else
      TimedeltaStr(Trunc(seconds))
  }

  /* ----------------------------------------------------------------------
     Reading timestamps back
     ---------------------------------------------------------------------- */

  /** The second count an `H:MM:SS` string denotes, or `None` if it is not
      of that shape. The hours are written without leading zeros, as
      `str(timedelta)` writes them. */
  function ParseClock(t: string): Option<int> {
    var f := SplitOn(t, ':');
    if |f| == 3 && |f[0]| >= 1 && (|f[0]| == 1 || f[0][0] != '0') && |f[1]| == 2 && |f[2]| == 2 then
      match (ParseNat(f[0]), ParseNat(f[1]), ParseNat(f[2]))
      case (Some(h), Some(m), Some(s)) =>
        if m < 60 && s < 60 then Some(h * 3600 + m * 60 + s) else None
      case _ => None
    else None
  }

  /** The millisecond count an `H:MM:SS,mmm` string denotes, or `None`. */
  function ParseSrt(t: string): Option<int> {
    var f := SplitOn(t, ',');
    if |f| == 2 && |f[1]| == 3 then
      match (ParseClock(f[0]), ParseNat(f[1]))
      case (Some(c), Some(ms)) => Some(c * 1000 + ms)
      case _ => None
    else None
  }

  /* ----------------------------------------------------------------------
     Properties
     ---------------------------------------------------------------------- */

  lemma NumeralNoChar(s: string, c: char)
    requires NumeralChars(s) && !IsDigit(c) && c != '-'
    ensures Count(s, c) == 0
    ensures forall i :: 0 <= i < |s| ==> s[i] != c
  {
    CountAbsent(s, c);
  }

  /** The clock part has exactly two colons, no comma and no line break. */
  lemma ClockColons(secs: int)
    ensures Count(Clock(secs), ':') == 2
    ensures forall i :: 0 <= i < |Clock(secs)| ==> Clock(secs)[i] != ','
    ensures SingleLine(Clock(secs))
  {
    var m := secs / 60;
    var h := IntStr(m / 60);
    var mm := FormatD(m % 60, 2);
    var ss := FormatD(secs % 60, 2);
    NumeralNoChar(h, ':');
    NumeralNoChar(mm, ':');
    NumeralNoChar(ss, ':');
    NumeralNoChar(h, ',');
    NumeralNoChar(mm, ',');
    NumeralNoChar(ss, ',');
    NumeralNoChar(h, '\n');
    NumeralNoChar(mm, '\n');
    NumeralNoChar(ss, '\n');
    CountAppend(h, ":", ':');
    CountAppend(h + ":", mm, ':');
    CountAppend(h + ":" + mm, ":", ':');
    CountAppend(h + ":" + mm + ":", ss, ':');
  }

  lemma NoColonInDayPrefix(days: int, prefix: string)
    requires prefix == IntStr(days) + " day" + (if days == 1 || days == -1 then "" else "s") + ", "
    ensures Count(prefix, ':') == 0
    ensures SingleLine(prefix)
  {
    NumeralNoChar(IntStr(days), ':');
    NumeralNoChar(IntStr(days), '\n');
    CountAbsent(prefix, ':');
  }

  /** Every timestamp is a single line. */
  lemma TimestampSingleLine(seconds: real, forSrt: bool)
    ensures SingleLine(FormatTimestamp(seconds, forSrt))
  {
    var n := Trunc(seconds);
    var days := n / SecondsPerDay;
    ClockColons(n % SecondsPerDay);
    if days != 0 {
      var prefix := IntStr(days) + " day" + (if days == 1 || days == -1 then "" else "s") + ", ";
      NoColonInDayPrefix(days, prefix);
    }
    if forSrt {
      var ms := Trunc((seconds - n as real) * 1000.0);
      NumeralNoChar(FormatD(ms, 3), '\n');
      SrtPrefixNeverAdded(seconds);
    }
  }

  /** The `"00:"` branch is dead: the subtitle timestamp is always the plain
      timestamp followed by `,` and the zero-padded milliseconds, so hours
      stay unpadded in subtitles too. */
  lemma SrtPrefixNeverAdded(seconds: real)
    ensures FormatTimestamp(seconds, true)
            == FormatTimestamp(seconds, false) + ","
               + FormatD(Trunc((seconds - Trunc(seconds) as real) * 1000.0), 3)
  {
    assert |SplitOn(TimedeltaStr(Trunc(seconds)), ':')| == 3;
  }

  /** Both forms of a timestamp have exactly two colons, so splitting one
      on `:` never yields the two pieces the `MM:SS` test looks for. */
  lemma TimestampColons(seconds: real, forSrt: bool)
    ensures Count(FormatTimestamp(seconds, forSrt), ':') == 2
  {
    if forSrt {
      var plain := FormatTimestamp(seconds, false);
      var ms := FormatD(Trunc((seconds - Trunc(seconds) as real) * 1000.0), 3);
      SrtPrefixNeverAdded(seconds);
      NumeralNoChar(ms, ':');
      CountAppend(plain, ",", ':');
      CountAppend(plain + ",", ms, ':');
    }
  }

  /** The three colon-separated fields of a clock string. */
  lemma ClockFields(secs: int)
    ensures SplitOn(Clock(secs), ':')
            == [IntStr(secs / 60 / 60), FormatD(secs / 60 % 60, 2), FormatD(secs % 60, 2)]
  {
    var h := IntStr(secs / 60 / 60);
    var mm := FormatD(secs / 60 % 60, 2);
    var ss := FormatD(secs % 60, 2);
    assert Clock(secs) == h + [':'] + (mm + [':'] + ss);
    NumeralNoChar(h, ':');
    NumeralNoChar(mm, ':');
    NumeralNoChar(ss, ':');
    SplitOnJoin(h, mm + [':'] + ss, ':');
    SplitOnJoin(mm, ss, ':');
    SplitOnAbsent(ss, ':');
  }

  /** A second count within one day is recovered from its clock string. */
  lemma ClockParses(secs: int)
    requires 0 <= secs < SecondsPerDay
    ensures ParseClock(Clock(secs)) == Some(secs)
  {
    var m := secs / 60;
    var hh := m / 60;
    ClockFields(secs);
    NatStrRoundTrip(hh);
    assert Pow10(2) == 100;
    FormatDRoundTrip(m % 60, 2);
    FormatDRoundTrip(secs % 60, 2);
    assert secs == m * 60 + secs % 60;
    assert m == hh * 60 + m % 60;
    assert secs == hh * 3600 + (m % 60) * 60 + secs % 60;
  }

  /** Within one day the plain timestamp is `H:MM:SS` of the whole seconds,
      has no comma, and reads back as that second count. */
  lemma ClockRoundTrip(n: int)
    requires 0 <= n < SecondsPerDay
    ensures ParseClock(TimedeltaStr(n)) == Some(n)
    ensures forall i :: 0 <= i < |TimedeltaStr(n)| ==> TimedeltaStr(n)[i] != ','
  {
    assert n / SecondsPerDay == 0 && n % SecondsPerDay == n;
    assert TimedeltaStr(n) == Clock(n);
    ClockColons(n);
    ClockParses(n);
  }

  /** The plain timestamp of a time within one day denotes its whole seconds. */
  lemma PlainTimestampDenotesSeconds(seconds: real)
    requires 0.0 <= seconds < SecondsPerDay as real
    ensures ParseClock(FormatTimestamp(seconds, false)) == Some(seconds.Floor)
  {
    ClockRoundTrip(Trunc(seconds));
  }

  /** A subtitle string built from a clock within one day and a millisecond
      count below 1000 reads back as the total milliseconds. */
  lemma SrtParses(n: int, ms: int)
    requires 0 <= n < SecondsPerDay && 0 <= ms < 1000
    ensures ParseSrt(TimedeltaStr(n) + "," + FormatD(ms, 3)) == Some(n * 1000 + ms)
  {
    var t := TimedeltaStr(n);
    var m := FormatD(ms, 3);
    ClockRoundTrip(n);
    assert Pow10(3) == 1000;
    FormatDRoundTrip(ms, 3);
    SrtFields(t, m);
  }

  /** A comma-free clock part and a numeral split at the one comma between
      them. */
  lemma SrtFields(t: string, m: string)
    requires forall i :: 0 <= i < |t| ==> t[i] != ','
    requires NumeralChars(m)
    ensures SplitOn(t + "," + m, ',') == [t, m]
  {
    assert t + "," + m == t + [','] + m;
    NumeralNoChar(m, ',');
    SplitOnJoin(t, m, ',');
    SplitOnAbsent(m, ',');
  }

  /** Whole seconds times 1000 plus the truncated milliseconds of the
      fraction is the time in milliseconds, truncated. */
  lemma MillisecondsSplit(seconds: real)
    requires 0.0 <= seconds
    ensures var n := Trunc(seconds);
            var ms := Trunc((seconds - n as real) * 1000.0);
            0 <= ms < 1000 && n * 1000 + ms == (seconds * 1000.0).Floor
  {
    var n := Trunc(seconds);
    var frac := seconds - n as real;
    FloorShift(n * 1000, frac * 1000.0);
    assert (n * 1000) as real + frac * 1000.0 == seconds * 1000.0;
  }

  /** The subtitle timestamp of a time within one day denotes the time in
      milliseconds, truncated: `H:MM:SS,mmm` with exactly three millisecond
      digits. */
  lemma SrtTimestampDenotesMilliseconds(seconds: real)
    requires 0.0 <= seconds < SecondsPerDay as real
    ensures ParseSrt(FormatTimestamp(seconds, true)) == Some((seconds * 1000.0).Floor)
  {
    var n := Trunc(seconds);
    var ms := Trunc((seconds - n as real) * 1000.0);
    MillisecondsSplit(seconds);
    SrtTimestampParts(seconds, n, ms);
    SrtParses(n, ms);
  }

  /** For a time within one day, `s` reads back as that time in whole
      milliseconds, truncated. */
  predicate DenotesMilliseconds(s: string, x: real) {
    0.0 <= x < SecondsPerDay as real ==> ParseSrt(s) == Some((x * 1000.0).Floor)
  }

  /** `SrtTimestampDenotesMilliseconds` for every real, stated through
      `DenotesMilliseconds`. */
  lemma SrtTimeReadsBack(x: real)
    ensures DenotesMilliseconds(FormatTimestamp(x, true), x)
  {
    if 0.0 <= x < SecondsPerDay as real {
      SrtTimestampDenotesMilliseconds(x);
    }
  }

  /** The subtitle timestamp as the clock of the whole seconds, a comma and
      the milliseconds. */
  lemma SrtTimestampParts(seconds: real, n: int, ms: int)
    requires n == Trunc(seconds) && ms == Trunc((seconds - n as real) * 1000.0)
    ensures FormatTimestamp(seconds, true) == TimedeltaStr(n) + "," + FormatD(ms, 3)
  {
    SrtPrefixNeverAdded(seconds);
  }

  /** Small numbers as `{n}`, `{n:02d}` and `{n:03d}`. */
  lemma SmallNumerals()
    ensures IntStr(0) == "0" && IntStr(1) == "1"
    ensures FormatD(0, 2) == "00" && FormatD(1, 2) == "01" && FormatD(5, 2) == "05"
    ensures FormatD(0, 3) == "000"
  {
    assert DigitChar(0) == '0' && DigitChar(1) == '1' && DigitChar(5) == '5';
    assert NatStr(0) == "0" && NatStr(1) == "1" && NatStr(5) == "5";
    assert Zeros(1) == "0" && Zeros(2) == "00";
  }

  /** A time within one day in terms of its rendered fields. */
  lemma ClockOf(secs: int, h: string, mm: string, ss: string)
    requires 0 <= secs < SecondsPerDay
    requires IntStr(secs / 60 / 60) == h && FormatD(secs / 60 % 60, 2) == mm && FormatD(secs % 60, 2) == ss
    ensures TimedeltaStr(secs) == h + ":" + mm + ":" + ss
  {
    assert secs / SecondsPerDay == 0 && secs % SecondsPerDay == secs;
  }

  lemma HourClock()
    ensures Trunc(3661.0) == 3661 && TimedeltaStr(3661) == "1:01:01"
    ensures Trunc((3661.0 - 3661 as real) * 1000.0) == 0
  {
    FloorUnique(3661.0, 3661);
    SmallNumerals();
    ClockOf(3661, "1", "01", "01");
  }

  /** `3661` seconds render as `1:01:01`, and as `1:01:01,000` in subtitles. */
  lemma FormatExampleHour()
    ensures FormatTimestamp(3661.0, false) == "1:01:01"
    ensures FormatTimestamp(3661.0, true) == "1:01:01,000"
  {
    HourClock();
    SmallNumerals();
    SrtTimestampParts(3661.0, 3661, 0);
  }

  /** A zero-padded hour is not the way `str(timedelta)` writes it, so
      `01:01:01` does not read back. */
  lemma PaddedHourRejected()
    ensures ParseClock("01:01:01") == None
  {
    var h, mm, ss := "01", "01", "01";
    SplitOnJoin(h, mm + [':'] + ss, ':');
    SplitOnJoin(mm, ss, ':');
    SplitOnAbsent(ss, ':');
    assert "01:01:01" == h + [':'] + (mm + [':'] + ss);
    assert SplitOn("01:01:01", ':')[0] == h;
  }

  /** Five seconds render as `0:00:05,000` in subtitles: the hours are not
      padded to two digits. */
  lemma FormatExampleSeconds()
    ensures FormatTimestamp(5.0, true) == "0:00:05,000"
  {
    FloorUnique(5.0, 5);
    assert Trunc(5.0) == 5;
    SmallNumerals();
    ClockOf(5, "0", "00", "05");
    assert Trunc((5.0 - 5 as real) * 1000.0) == 0;
    SrtPrefixNeverAdded(5.0);
  }

  lemma ClockExample()
    ensures Trunc(3662.5) == 3662
    ensures TimedeltaStr(3662) == "1:01:02"
  {
    FloorUnique(3662.5, 3662);
    SmallNumerals();
    assert DigitChar(2) == '2' && NatStr(2) == "2";
    assert FormatD(2, 2) == "02";
    ClockOf(3662, "1", "01", "02");
  }

  lemma MillisExample()
    ensures Trunc((3662.5 - 3662 as real) * 1000.0) == 500
    ensures FormatD(500, 3) == "500"
  {
    FloorUnique((3662.5 - 3662 as real) * 1000.0, 500);
    assert DigitChar(5) == '5' && DigitChar(0) == '0';
    assert NatStr(5) == "5" && NatStr(50) == "50" && NatStr(500) == "500";
  }

  /** `3662.5` seconds render as `1:01:02` and `1:01:02,500`. */
  lemma FormatExampleHalfSecond()
    ensures FormatTimestamp(3662.5, false) == "1:01:02"
    ensures FormatTimestamp(3662.5, true) == "1:01:02,500"
  {
    ClockExample();
    MillisExample();
    SrtPrefixNeverAdded(3662.5);
  }
}
